=== FILE: README.md ===
# Rural producer registry — Dafny model of the service core

The application registers rural producers (farmers) for a Brazilian
agribusiness dashboard. A producer has a tax document (a CPF for a person, a
CNPJ for a company), a farm with its city and state, three areas in hectares
(total, arable, vegetation) and the crops it grows. There are two backends
and a frontend:

- the **Express backend** keeps a flat list of crop names per producer. Its
  `ProducerService` class (`backend/src/services/ProducerService.ts`) checks
  the document's two mod-11 check digits and the area rule (arable +
  vegetation must not exceed the total) before saving, and builds a dashboard.
  No route calls that class: the Express routes go to a controller that saves
  requests directly, so over HTTP the Express backend stores documents and
  areas unchecked. The model is of the `ProducerService` class;
- the **Nest backend** (`backend-nest/src/producers/services/producers.service.ts`)
  keeps harvests (a year plus crop names) per producer. It groups the harvests
  of a request by year before saving, and builds a dashboard with per-year
  crop counts. It performs no document or area validation;
- the **frontend store** (`frontend/src/store/producerSlice.ts`) is a Redux
  slice. It holds the fetched producer list, a loading flag and an error
  message.

The model is pure functions over immutable datatypes:

| module | file | models |
|---|---|---|
| `Wrappers` | `wrappers.dfy` | `Option` and `Result` |
| `Tally` | `tally.dfy` | counters of the form `acc[k] = (acc[k] \|\| 0) + 1`, counts and sums over lists, order independence |
| `DocumentValidator` | `document_validator.dfy` | `validateCPF`, `validateCNPJ`, `validateDocument`; the loops of `validateCPF` and `validateCNPJ` as methods |
| `ExpressService` | `express_service.dfy` | Express `create`, `update`, `delete`, `getDashboardData` |
| `NestEntities` | `nest_entities.dfy` | Nest producer, harvest, request bodies, store, errors |
| `HarvestGrouping` | `harvest_grouping.dfy` | `groupHarvestsByYear`, and turning the grouping into harvest records |
| `NestService` | `nest_service.dfy` | Nest `create`, `update`, `remove` |
| `NestDashboard` | `nest_dashboard.dfy` | Nest `getDashboard` |
| `ProducerSlice` | `producer_slice.dfy` | the slice's reducer, and `Number(payload)` for delete |

The database is a map from id to producer. A call returns the new map with
its outcome, so a failing call visibly leaves the map as it was. The id a new
row receives, and the first message class-validator reports, come from code
outside the model. They are parameters.

What the model shows about the code as written:

- **Nest `update` does not merge harvests.** The comments at
  `producers.service.ts:98` and `:102` describe merging new crops into the
  stored harvest of the same year. But `Object.assign` at `:90` has already
  replaced `producer.harvests` with the request's own list. So the lookup at
  `:99` finds the request's harvest, and the result is just the grouping of
  the request (`NestService.UpdateHarvestsAreThePatch`). Stored years and
  crops the request leaves out are dropped (`NestService.UpdateDropsUnsentYears`,
  `NestService.UpdateDoesNotMergeExample`).
- **The two dashboards count crops differently.**
  - Nest `cropCount[c]` counts farms, so it never exceeds `totalFarms`.
  - Express `cropCount[c]` counts list entries, so a crop listed twice on one
    farm counts twice (`ExpressService.RepeatedCropCountsTwice`).
  - Nest `harvestsByYear[y][c]` counts harvest rows. It counts farms only when
    each farm has one row per year (`NestDashboard.HarvestsByYearCountsFarms`,
    `NestDashboard.RepeatedYearRowsCountTwice`).
- **Nest `create` accepts any document and any areas.** The unit test at
  `producers.service.spec.ts:128-143` expects a BadRequest error for an
  invalid CPF and for an area sum over the total. The service code has no such
  check, and the model follows the code: `NestService.Create` always succeeds.
- **Express `update` skips the document check for an empty document.** A patch
  with `document: ""` is not validated and overwrites the stored document
  (`ExpressService.UpdateStoresEmptyDocument`).

## Model

| member | source | states |
|---|---|---|
| DocumentValidator.IsDigit | backend/src/services/ProducerService.ts:10 | the characters `\d` matches: the ASCII digits |
| DocumentValidator.DigitValue | backend/src/services/ProducerService.ts:21 | `parseInt` of one digit character is a value below 10 |
| DocumentValidator.StripNonDigits | backend/src/services/ProducerService.ts:81-83 | removing every non-digit leaves only ASCII digits and never lengthens the text |
| DocumentValidator.StripDigitsIdentity | backend/src/services/ProducerService.ts:8-10 | text that is already all digits is unchanged by stripping, so re-stripping inside `validateCPF` and `validateCNPJ` is harmless |
| DocumentValidator.StripConcat | backend/src/services/ProducerService.ts:81-83 | stripping works piece by piece: the digits of a concatenation are the digits of each part, in order |
| DocumentValidator.AllSame | backend/src/services/ProducerService.ts:16 | the repeated-digit test: every character equals the first (also used at :47) |
| DocumentValidator.CpfTerms | backend/src/services/ProducerService.ts:19-22 | the CPF weighted sum of the first `k` digits, weights descending from `top` |
| DocumentValidator.CnpjTerms | backend/src/services/ProducerService.ts:50-59 | the CNPJ weighted sum of the first `k` digits under `CnpjWeight` |
| DocumentValidator.CpfDigitsHold | backend/src/services/ProducerService.ts:23-34 | both CPF check digits equal the digits computed from the sums |
| DocumentValidator.CnpjDigitsHold | backend/src/services/ProducerService.ts:60-76 | both CNPJ check digits equal the digits computed from the sums |
| DocumentValidator.ValidateCpf | backend/src/services/ProducerService.ts:8-37 | refuses every cleaned length but 11 and every single repeated digit; otherwise accepts exactly when both CPF check digits hold. It is the reference the loop method is proved equal to |
| DocumentValidator.ValidateCnpj | backend/src/services/ProducerService.ts:39-79 | refuses every cleaned length but 14 and every single repeated digit; otherwise accepts exactly when both CNPJ check digits hold. It is the reference the loop method is proved equal to |
| DocumentValidator.ValidateDocument | backend/src/services/ProducerService.ts:81-93 | a document is accepted only with 11 or 14 digits after cleaning and never as one repeated digit; with 11 digits it is accepted exactly when both CPF check digits hold and the digits are not all equal; with 14 digits the same with the CNPJ check digits |
| DocumentValidator.CpfLoopSum | backend/src/services/ProducerService.ts:19-22 | the CPF loop's running sum equals the weighted sum of the first `count` digits with weights descending from `top` |
| DocumentValidator.CpfDigit | backend/src/services/ProducerService.ts:23-24 | the CPF check digit of a sum is `11 - sum % 11`, with 10 and 11 becoming 0, so it is always a single digit |
| DocumentValidator.CnpjWeight | backend/src/services/ProducerService.ts:54-58 | the CNPJ weight of a position is between 2 and 9: it starts at 2 at the rightmost base digit and rises to the left, wrapping after 9 |
| DocumentValidator.CnpjDigit | backend/src/services/ProducerService.ts:61 | the CNPJ check digit of a sum is 0 when `sum % 11 < 2` and `11 - sum % 11` otherwise, so it is always a single digit |
| DocumentValidator.CnpjLoopSum | backend/src/services/ProducerService.ts:50-59 | the CNPJ loop, with `pos` counting down and wrapping from 2 back to 9, computes the weighted sum with weight 2 at the rightmost base digit |
| DocumentValidator.ValidateCpfLoop | backend/src/services/ProducerService.ts:8-37 | the CPF check with its early returns agrees with the CPF predicate on every input |
| DocumentValidator.ValidateCnpjLoop | backend/src/services/ProducerService.ts:39-79 | the CNPJ check with its early returns agrees with the CNPJ predicate on every input |
| DocumentValidator.CpfTermsPrefix | backend/src/services/ProducerService.ts:19-22 | the CPF weighted sum over the first k digits depends only on those k digits |
| DocumentValidator.CnpjTermsPrefix | backend/src/services/ProducerService.ts:53-59 | the CNPJ weighted sum over the first k digits depends only on those k digits |
| DocumentValidator.CompleteCpf | backend/src/services/ProducerService.ts:18-34 | completing nine base digits yields 11 digits that start with the base |
| DocumentValidator.CompleteCnpj | backend/src/services/ProducerService.ts:49-76 | completing twelve base digits yields 14 digits that start with the base |
| DocumentValidator.CpfAcceptedIffComplete | backend/src/services/ProducerService.ts:8-37 | an 11-digit document is accepted if and only if it is not one repeated digit and equals the completion of its own first nine digits |
| DocumentValidator.CnpjAcceptedIffComplete | backend/src/services/ProducerService.ts:39-79 | a 14-digit document is accepted if and only if it is not one repeated digit and equals the completion of its own first twelve digits |
| DocumentValidator.CompletedCpfAccepted | backend/src/services/ProducerService.ts:8-37 | round trip: the completion of any nine-digit base is accepted, unless it is one repeated digit |
| DocumentValidator.CompletedCnpjAccepted | backend/src/services/ProducerService.ts:39-79 | round trip: the completion of any twelve-digit base is accepted, unless it is one repeated digit |
| DocumentValidator.CpfCheckDigitsDetermined | backend/src/services/ProducerService.ts:18-34 | two accepted CPFs with the same first nine digits are equal: the check digits are a function of the base |
| DocumentValidator.RepeatedDigitRejected | backend/src/services/ProducerService.ts:15-16 | a text of one repeated digit is refused at every length |
| DocumentValidator.ValidCpfFixture | backend-nest/src/producers/producers.service.spec.ts:17 | the fixture CPF 529.982.247-25 is accepted however it is punctuated |
| DocumentValidator.CnpjCheckDigitsDetermined | backend/src/services/ProducerService.ts:49-76 | two accepted CNPJs with the same first twelve digits are equal: the check digits are a function of the base |
| DocumentValidator.ValidCnpjFixture | backend/src/services/ProducerService.ts:39-79 | 11.222.333/0001-81 is accepted, whatever its punctuation; its check sums are 102 and 120 |
| DocumentValidator.InvalidCnpjFixture | backend/src/services/ProducerService.ts:65-76 | 11.222.333/0001-82 is refused: its second check digit computes to 1, not 2 |
| DocumentValidator.InvalidCpfFixture | backend-nest/src/producers/producers.service.spec.ts:85 | 123.456.789-00 is refused: its first check digit is right (0) but the second computes to 9 |
| ExpressService.Message | backend/src/services/ProducerService.ts:98-148 | the text each error is thrown with; a validation error carries class-validator's first message (:111, :139) |
| ExpressService.AreaExceeds | backend/src/services/ProducerService.ts:104 | the area rule: arable plus vegetation above the total (also at :132) |
| ExpressService.FromInput | backend/src/services/ProducerService.ts:101 | the producer `create` builds from the request under the new id |
| ExpressService.DocumentRejected | backend/src/services/ProducerService.ts:124 | update checks the document only when one is sent and non-empty, and rejects it when invalid |
| ExpressService.Create | backend/src/services/ProducerService.ts:95-115 | create saves if and only if the document is valid, the areas fit and class-validator reports nothing; the document error wins over the area error, which wins over the validation error; a failure stores nothing; a success stores exactly the input under the new id |
| ExpressService.Assign | backend/src/services/ProducerService.ts:129 | `Object.assign` keeps the id, and every field, the three areas included, is the sent value when the patch has it and the loaded one otherwise; an empty patch changes nothing. So the area rule of update sees the merged areas |
| ExpressService.Update | backend/src/services/ProducerService.ts:117-143 | update saves if and only if the id exists, a non-empty new document is valid, the merged producer's areas fit and validation passes; the errors come in that order: not-found, then the document, then the areas, then the first validation message; a failure stores nothing; a success replaces just that producer with the merge of stored and patched fields |
| ExpressService.UpdateStoresEmptyDocument | backend/src/services/ProducerService.ts:124-129 | an empty document in the patch skips the check and is stored |
| ExpressService.UpdateChecksMergedAreas | backend/src/services/ProducerService.ts:129-134 | the area rule is checked on the merged producer: a name-only patch to a producer that already breaks the rule fails and stores nothing |
| ExpressService.Delete | backend/src/services/ProducerService.ts:145-150 | deleting a missing id fails with not-found and removes nothing; otherwise exactly that id is removed |
| ExpressService.GetDashboardData | backend/src/services/ProducerService.ts:156-159 | the farm count is the number of producers |
| ExpressService.CountCropsSpec | backend/src/services/ProducerService.ts:168-174 | the crop fold adds, for every crop, the number of times it is listed, creates no zero entries, and adds the total length of the crop lists to the sum of the counters |
| ExpressService.DashboardDataCounts | backend/src/services/ProducerService.ts:156-189 | total area and soil use are sums over all producers; `stateCount[s]` is the number of producers in `s`, and these counters add up to `totalFarms`; `cropCount[c]` is the number of times `c` is listed over all producers; keys are exactly those with a non-zero count; the crop counters add up to the total length of the crop lists |
| ExpressService.StateCountAddsUpToFarms | backend/src/services/ProducerService.ts:159-166 | the per-state counters add up to the number of producers |
| ExpressService.CountCrops | backend/src/services/ProducerService.ts:169-174 | the crop `reduce`, one producer at a time; what it computes is stated by `ExpressService.CountCropsSpec` |
| ExpressService.RepeatedCropCountsTwice | backend/src/services/ProducerService.ts:169-173 | one farm listing Soja twice gets `cropCount["Soja"] == 2` with one farm |
| HarvestGrouping.Dedup | backend-nest/src/producers/services/producers.service.ts:31 | `Array.from(new Set(xs))` repeats no name and holds exactly the names of `xs` |
| HarvestGrouping.Push | backend-nest/src/producers/services/producers.service.ts:52-53 | push a name unless the list already includes it |
| HarvestGrouping.AppendNew | backend-nest/src/producers/services/producers.service.ts:51-55 | the push-if-absent `forEach`; its properties are stated by `HarvestGrouping.AppendNewProps` and the lemmas after it |
| HarvestGrouping.AppendNewProps | backend-nest/src/producers/services/producers.service.ts:51-55 | the push-if-absent loop only appends, holds exactly the old and new names, and keeps a duplicate-free list duplicate-free |
| HarvestGrouping.AppendNewConcat | backend-nest/src/producers/services/producers.service.ts:51-55 | pushing a concatenation is pushing one part, then the other |
| HarvestGrouping.AppendNewKnown | backend-nest/src/producers/services/producers.service.ts:52 | names already listed are all skipped |
| HarvestGrouping.AppendNewFresh | backend-nest/src/producers/services/producers.service.ts:52-53 | distinct names not yet listed are appended in order |
| HarvestGrouping.DedupOfDistinct | backend-nest/src/producers/services/producers.service.ts:31 | de-duplicating a list without repeats returns it unchanged |
| HarvestGrouping.AppendNewAbsorbs | backend-nest/src/producers/services/producers.service.ts:103-106 | pushing the same names a second time adds nothing |
| HarvestGrouping.FirstIndex | backend-nest/src/producers/services/producers.service.ts:52 | the first position holding `x`: it holds `x` and no earlier position does |
| HarvestGrouping.DedupKeepsFirstAppearanceOrder | backend-nest/src/producers/services/producers.service.ts:31 | the de-duplicated list orders names by their first appearance in the input |
| HarvestGrouping.YearCropsMembers | backend-nest/src/producers/services/producers.service.ts:45-58 | a name is among a year's reported names if and only if some harvest of that year lists it |
| HarvestGrouping.GroupStep | backend-nest/src/producers/services/producers.service.ts:47-56 | one step of the `reduce`; stated through `HarvestGrouping.GroupFromKeys` and `GroupFromValue` |
| HarvestGrouping.GroupFrom | backend-nest/src/producers/services/producers.service.ts:46-57 | the `reduce` over the reports; stated through `HarvestGrouping.GroupFromKeys` and `GroupFromValue` |
| HarvestGrouping.GroupFromKeys | backend-nest/src/producers/services/producers.service.ts:46-50 | the reduce's keys are the starting keys plus every reported year |
| HarvestGrouping.GroupFromValue | backend-nest/src/producers/services/producers.service.ts:46-57 | a year's list after the reduce is its starting list with that year's reported names pushed in order |
| HarvestGrouping.GroupHarvestsByYear | backend-nest/src/producers/services/producers.service.ts:45-58 | keys are exactly the reported years, including years whose harvests list no crops; a year's list is its reported names, each once, in first-appearance order |
| HarvestGrouping.GroupingKeepsPairs | backend-nest/src/producers/services/producers.service.ts:45-58 | a (year, crop) pair is in the grouping if and only if some reported harvest has it; no year lists a crop twice |
| HarvestGrouping.GroupOfMaterialised | backend-nest/src/producers/services/producers.service.ts:24-37 | grouping the materialised harvests again gives back the same names per year |
| HarvestGrouping.SortedKeys | backend-nest/src/producers/services/producers.service.ts:28 | `Object.entries` on year keys lists each year once, ascending |
| HarvestGrouping.Materialise | backend-nest/src/producers/services/producers.service.ts:28-37 | `Object.entries(...).map(...)` gives one harvest per key of the grouping |
| HarvestGrouping.YearsOfIndexed | backend-nest/src/producers/services/producers.service.ts:28-37 | harvests whose years are a given key list, position by position, have exactly those years |
| HarvestGrouping.MaterialiseYears | backend-nest/src/producers/services/producers.service.ts:28-37 | materialising gives one harvest per year of the grouping, in ascending year order, and only those years |
| HarvestGrouping.MaterialiseYearCrops | backend-nest/src/producers/services/producers.service.ts:30-35 | a year's materialised harvest carries that year's names, de-duplicated |
| HarvestGrouping.YearCropsSingle | backend-nest/src/producers/services/producers.service.ts:28-37 | when years are distinct, a year's reported names are those of its one harvest |
| NestService.Create | backend-nest/src/producers/services/producers.service.ts:21-43 | create always succeeds; it stores a producer with the request's fields under the new id and leaves every other producer as it was; the stored harvests are the request's harvests grouped by year, or none when the request has no list |
| NestService.CreateHarvests | backend-nest/src/producers/services/producers.service.ts:24-40 | without a harvest list there are no harvests; otherwise there are as many harvests as distinct reported years |
| NestService.CreateHarvestsOnePerYear | backend-nest/src/producers/services/producers.service.ts:24-40 | without a harvest list the producer gets none; otherwise one harvest per distinct reported year, ascending, each with that year's names once each |
| NestService.FindYear | backend-nest/src/producers/services/producers.service.ts:99 | `find` returns the first harvest of the list with the asked year (no earlier harvest has that year), and finds nothing exactly when no harvest has that year |
| NestService.Assign | backend-nest/src/producers/services/producers.service.ts:90 | `Object.assign` keeps the id, changes nothing for an empty patch, and a sent harvest list replaces the loaded harvests |
| NestService.RebuildYear | backend-nest/src/producers/services/producers.service.ts:99-128 | the rebuilt harvest has the asked year and no repeated names; its names are the new ones plus, when a harvest of that year is found, that harvest's names |
| NestService.RebuildHarvests | backend-nest/src/producers/services/producers.service.ts:97-129 | one harvest per grouped year, years ascending, and no other years |
| NestService.Update | backend-nest/src/producers/services/producers.service.ts:83-133 | a missing id fails with not-found and stores nothing; otherwise only that producer is replaced; every scalar field is the patched value if sent, else the stored one; without a harvest list the stored harvests stay |
| NestService.FindYearLeads | backend-nest/src/producers/services/producers.service.ts:99 | the first harvest of a year supplies the first names of that year's reports |
| NestService.RebuildYearFromItself | backend-nest/src/producers/services/producers.service.ts:97-117 | rebuilding a year from the list that was grouped gives exactly the grouped names for that year |
| NestService.UpdateHarvestsAreThePatch | backend-nest/src/producers/services/producers.service.ts:90-130 | with a harvest list, the updated harvests are exactly the request's harvests grouped and materialised; stored harvests play no part |
| NestService.UpdateDropsUnsentYears | backend-nest/src/producers/services/producers.service.ts:90-130 | after an update with a harvest list, the producer's years are exactly the request's years |
| NestService.UpdateDoesNotMergeExample | backend-nest/src/producers/services/producers.service.ts:97-117 | a stored {2024: Soja, 2023: Trigo} patched with {2024: Milho} ends with 2024: Milho only |
| NestService.Remove | backend-nest/src/producers/services/producers.service.ts:135-142 | removing a missing id fails with not-found and removes nothing; otherwise exactly that producer goes |
| NestDashboard.CropsOf | backend-nest/src/producers/services/producers.service.ts:187-191 | the set of crop names a producer lists over all its harvests |
| NestDashboard.CropSet | backend-nest/src/producers/services/producers.service.ts:173 | the distinct crop names of one harvest row |
| NestDashboard.Row | backend-nest/src/producers/services/producers.service.ts:168-170 | a year's record, empty when the year is not yet a key |
| NestDashboard.AddHarvest | backend-nest/src/producers/services/producers.service.ts:164-178 | one harvest row added to `harvestsByYear`; stated by `NestDashboard.AddHarvestStep` |
| NestDashboard.GetDashboard | backend-nest/src/producers/services/producers.service.ts:144-214 | the farm count is the number of producers, and soil use repeats the total area |
| NestDashboard.AddHarvests | backend-nest/src/producers/services/producers.service.ts:164-179 | one producer's rows added to `harvestsByYear`; stated by `NestDashboard.AddHarvestsSpec` |
| NestDashboard.AddProducers | backend-nest/src/producers/services/producers.service.ts:159-180 | the loop over all producers building `harvestsByYear`; stated by `NestDashboard.AddProducersSpec` |
| NestDashboard.AddHarvestStep | backend-nest/src/producers/services/producers.service.ts:164-178 | one harvest row adds its year as a key and one to each of its distinct crops in that year |
| NestDashboard.AddHarvestsSpec | backend-nest/src/producers/services/producers.service.ts:162-179 | a producer's rows add their years as keys and, per year and crop, the number of rows of that year listing the crop |
| NestDashboard.AddProducersSpec | backend-nest/src/producers/services/producers.service.ts:159-180 | over all producers: a year is a key if and only if some producer has a row of that year; each counter is the number of rows carrying the pair; no zero counters |
| NestDashboard.DashboardTotals | backend-nest/src/producers/services/producers.service.ts:149-150 | total area and the three soil-use figures are sums over all producers |
| NestDashboard.StateCountCountsFarms | backend-nest/src/producers/services/producers.service.ts:153-156 | `stateCount[s]` is the number of producers in `s`; only states with producers are keys; the counters add up to `totalFarms` |
| NestDashboard.CropCountCountsFarms | backend-nest/src/producers/services/producers.service.ts:183-197 | `cropCount[c]` is the number of producers listing `c` in any harvest, however often; keys are the crops listed; never more than `totalFarms` |
| NestDashboard.HarvestsByYearCountsRows | backend-nest/src/producers/services/producers.service.ts:159-180 | every year with a harvest row is a key, even a row without crops; `harvestsByYear[y][c]` is the number of harvest rows of year `y` listing `c`, over all producers |
| NestDashboard.RowCountOfDistinctYears | backend-nest/src/producers/services/producers.service.ts:162-178 | with one row per year, a producer contributes 0 or 1 to a year's crop counter |
| NestDashboard.SumOfIndicators | backend-nest/src/producers/services/producers.service.ts:159-180 | with one row per year per producer, the row total equals the number of producers listing the crop that year |
| NestDashboard.HarvestsByYearCountsFarms | backend-nest/src/producers/services/producers.service.ts:159-180 | with one row per year per producer, as create and update leave them, `harvestsByYear[y][c]` is the number of farms growing `c` in `y`, at most `totalFarms` |
| NestDashboard.RepeatedYearRowsCountTwice | backend-nest/src/producers/services/producers.service.ts:162-178 | one farm with two 2024 rows listing Soja gets `harvestsByYear[2024]["Soja"] == 2` with one farm |
| NestDashboard.DashboardOrderIndependent | backend-nest/src/producers/services/producers.service.ts:144-214 | the whole dashboard depends only on the multiset of producers, not on the order they are read in |
| NestDashboard.StateCountOrderIndependent | backend-nest/src/producers/services/producers.service.ts:153-156 | `stateCount` depends only on the multiset of producers |
| NestDashboard.CropCountOrderIndependent | backend-nest/src/producers/services/producers.service.ts:183-197 | `cropCount` depends only on the multiset of producers |
| NestDashboard.HarvestsByYearOrderIndependent | backend-nest/src/producers/services/producers.service.ts:159-180 | `harvestsByYear` depends only on the multiset of producers |
| NestDashboard.FixtureStates | backend-nest/src/producers/producers.service.spec.ts:196-206 | for the single test producer, `stateCount` is `{SP: 1}` |
| NestDashboard.FixtureCrops | backend-nest/src/producers/producers.service.spec.ts:196-206 | for the single test producer, `cropCount` is `{Soja: 1, Milho: 1}` |
| NestDashboard.FixtureYears | backend-nest/src/producers/producers.service.spec.ts:14-34 | for the single test producer, `harvestsByYear` is `{2024: {Soja: 1, Milho: 1}}` |
| NestDashboard.SingleProducerDashboard | backend-nest/src/producers/producers.service.spec.ts:196-213 | the test producer's dashboard: one farm, 1000 ha, `{SP: 1}`, `{Soja: 1, Milho: 1}`, soil use 1000/800/200 |
| ProducerSlice.JsNumber | frontend/src/store/producerSlice.ts:53 | `Number` gives a non-negative value exactly for digit texts; any other text is NaN |
| ProducerSlice.DecimalText | frontend/src/components/ProducerList.tsx:136 | `String(id)` of a non-negative id is a digit text without a leading zero |
| ProducerSlice.DecimalRoundTrip | frontend/src/store/producerSlice.ts:51-55 | `Number(String(n)) == n` for every non-negative id |
| ProducerSlice.InitialState | frontend/src/store/producerSlice.ts:11-15 | the store starts with no producers, not loading and no error, and a delete on it changes nothing |
| ProducerSlice.RejectedWithoutMessage | frontend/src/store/producerSlice.ts:49 | a rejection with no message or an empty one shows "Erro ao carregar produtores" |
| ProducerSlice.Keeps | frontend/src/store/producerSlice.ts:53 | `producer.id !== Number(payload)`: a row is kept unless it has an id equal to the payload's number |
| ProducerSlice.Filter | frontend/src/store/producerSlice.ts:52-54 | `filter` keeps exactly the elements satisfying the test and never lengthens the list |
| ProducerSlice.Reduce | frontend/src/store/producerSlice.ts:37-56 | pending sets loading and clears the error; fulfilled replaces the list and leaves the error; rejected keeps the list and sets a non-empty error, the action's message when it has one; delete keeps exactly the rows whose id differs from the payload's number, with loading and error untouched; other actions change nothing |
| ProducerSlice.FilterIsSubsequence | frontend/src/store/producerSlice.ts:52-54 | the filtered list is the original with rows left out, order kept |
| ProducerSlice.FilterCount | frontend/src/store/producerSlice.ts:52-54 | the filtered list is as long as the number of rows passing the test |
| ProducerSlice.FilterIdempotent | frontend/src/store/producerSlice.ts:52-54 | filtering twice with the same test equals filtering once |
| ProducerSlice.DeleteKeepsOrderAndCount | frontend/src/store/producerSlice.ts:51-55 | after a delete the remaining rows keep their order and number as many as the rows not matching; a repeated delete changes nothing |
| ProducerSlice.DeleteByIdRemovesThatId | frontend/src/store/producerSlice.ts:51-55 | deleting with `String(id)` removes exactly the rows with that id |
| ProducerSlice.DeleteWithNonNumberKeepsAll | frontend/src/store/producerSlice.ts:53 | a payload that is not a number, such as `"undefined"`, removes nothing |
| ProducerSlice.FilterAll | frontend/src/store/producerSlice.ts:52-54 | when every row passes, the filter returns the list unchanged |
| ProducerSlice.FetchCycleSucceeds | frontend/src/store/producerSlice.ts:39-46 | pending then fulfilled leaves exactly the fetched list, not loading and no error, whatever the state before |
| ProducerSlice.FetchCycleFails | frontend/src/store/producerSlice.ts:39-50 | pending then rejected keeps the old list, stops loading, and reports the message or the default text |
| Tally.Get | backend/src/services/ProducerService.ts:164 | `acc[k] \|\| 0`: the counter of `k`, 0 when absent |
| Tally.Bump | backend/src/services/ProducerService.ts:164 | `acc[k] = (acc[k] \|\| 0) + 1` adds one to `k`'s counter, adds `k` as a key, and leaves every other counter |
| Tally.BumpAll | backend-nest/src/producers/services/producers.service.ts:175-177 | counting a set of names adds one to each of them and nothing to any other |
| Tally.TotalBump | backend/src/services/ProducerService.ts:163-166 | each count adds exactly one to the sum of the counters |
| Tally.FoldSum | backend/src/services/ProducerService.ts:160 | the `reduce((sum, x) => sum + f(x), acc)`; stated by `Tally.FoldSumIsSum` |
| Tally.FoldSumIsSum | backend/src/services/ProducerService.ts:160 | the `reduce` sum from 0 is the sum of the field over all producers |
| Tally.BumpEach | backend/src/services/ProducerService.ts:163-166 | the counting `reduce` over a list by one key; stated by `Tally.BumpEachCounts` and `BumpEachTotal` |
| Tally.BumpEachSet | backend-nest/src/producers/services/producers.service.ts:185-197 | counting each element once under each of its keys; stated by `Tally.BumpEachSetCounts` |
| Tally.BumpEachCounts | backend/src/services/ProducerService.ts:163-166 | counting by a key adds, per key, the number of elements with that key, with no zero counters |
| Tally.BumpEachTotal | backend/src/services/ProducerService.ts:163-166 | counting a list adds its length to the sum of the counters |
| Tally.BumpEachSetCounts | backend-nest/src/producers/services/producers.service.ts:183-197 | counting each element once under each of its keys adds, per key, the number of elements having it |
| Tally.PositiveMapsEqual | backend-nest/src/producers/services/producers.service.ts:144-214 | two count records without zero counters are equal when every counter agrees |
| Tally.CountIfPermutation | backend-nest/src/producers/services/producers.service.ts:144-214 | counts do not depend on the order of the producers |
| Tally.SumRealPermutation | backend-nest/src/producers/services/producers.service.ts:150 | area sums do not depend on the order of the producers |

## Left out

- HTTP controllers, routing, the Nest `ValidationPipe` and DTO decorators, the database connection and migrations: framework code around the services. The Express routes (`backend/src/routes.ts`) reach only `ProducerController`, which creates, merges, saves and deletes through the repository with no document or area check; that controller path is not part of this model, which covers the `ProducerService` class that no route calls.
- `findAll` and `findOne` of both services: plain repository reads; `findOne` appears only as the lookup inside update and remove.
- `backend-nest/src/producers/services/harvest.service.ts`: it adds harvests outside the producers service and can leave two rows of one year on a farm. The dashboard model allows that (`NestDashboard.HarvestsByYearCountsRows`), but the service itself is not modelled.
- The React components, pages and the Axios calls: user interface and network. The thunks appear only as the actions they dispatch.
- Tally.Bump: the source's counters are plain JavaScript objects, so names inherited from `Object.prototype` behave differently. A state or crop named `constructor` or `toString` starts from the inherited function and ends up holding a string such as `"function Object() { [native code] }1"`, and `__proto__` never becomes a key. The model counts every name from zero, as a map does. This affects `ExpressService.DashboardDataCounts`, `NestDashboard.StateCountCountsFarms`, `NestDashboard.CropCountCountsFarms` and `NestDashboard.HarvestsByYearCountsRows` in the same way.
- Floating point: areas are exact reals, so the area rule and the sums ignore rounding.
- ExpressService.Create: class-validator's `validate` result is a parameter. The Express entity declares no constraints, and what the library then reports depends on its version. The first message of the first error is passed in.
- ExpressService.Create, NestService.Create: the new id comes from the database and is a parameter that must be unused. A create body that itself carries an `id` is not modelled. Nest's validation pipe does not strip unknown fields, and `repository.create` copies such an `id` onto the entity, so `save` would overwrite the existing row with that id; the model's frame (every other producer as it was) does not hold for such a body. A missing field in a create body (undefined in JavaScript) is not modelled: every create field is present.
- ExpressService.Update: the patch cannot carry `id`, and the id text of the route is taken as already converted to a number. A field sent as JSON `null` is not modelled: `None` means the field is absent. In the source, `document: null` skips the document check (null is falsy) and stores null, and `totalArea: null` is read as 0 in the area comparison.
- ExpressService.Delete: the source takes the id as text. A text that is not a number makes the database call fail, not a not-found answer. The model takes a numeric id, so that failure is not modelled.
- NestService.Update: a patch that carries an `id` is not modelled. Nest's validation pipe does not strip unknown fields, so `Object.assign` would copy such an `id` onto the loaded producer and `save` would write to that other row; the model's frame (only the producer with the route id changes) does not hold for such a patch. The model keeps the `id` field of the stored row. The patched request harvest objects keep only their year and crop names; harvest and crop row ids are not represented. A field sent as JSON `null` is not modelled: `None` means the field is absent. In the source, `harvests: null` passes the optional check, `Object.assign` sets the producer's harvests to null and the rebuild is skipped, which the clause for an absent harvest list does not describe.
- ProducerSlice.JsNumber: only digit texts are read as numbers. Signs, surrounding spaces, decimals, exponents and hexadecimal forms are treated as NaN, so a payload such as `" 7"` or `"7.0"` is modelled as removing nothing, where JavaScript would remove id 7. Ids are positive database serials written by `String`, which this covers.
- HarvestGrouping.SortedKeys: JavaScript lists integer-like keys in ascending order only for array-index keys (0 to 2^32 - 2). Negative years or larger ones would come in insertion order. Years are modelled as always ascending.
- Harvest years are integers in the model. The request only requires a number, so a year such as 2024.5 is accepted by the source; `toString` and `parseInt` would then make 2024 and 2024.5 two groups that both come back as year 2024. Fractional years are not modelled.
- `simple-array` storage of Express crop names: a name containing a comma would come back split. Names are modelled as stored intact.
- Error messages: the Express messages are modelled (`ExpressService.Message`). For Nest, the not-found error carries the id, and the message text is not modelled.

=== FILE: document_validator.dfy ===
/** The Brazilian tax-ID checks of the Express backend: CPF (11 digits, an
    individual's number) and CNPJ (14 digits, a company's number), each with
    two mod-11 check digits. Validation is a pure predicate on the raw text. */
module DocumentValidator {

  predicate IsDigit(c: char) {
    '0' <= c <= '9'
  }

  predicate AllDigits(s: string) {
    forall i :: 0 <= i < |s| ==> IsDigit(s[i])
  }

  /** The value of one ASCII digit, as `parseInt` reads a one-character string. */
  function DigitValue(c: char): (v: nat)
    requires IsDigit(c)
    ensures v < 10
  {
    (c as int) - ('0' as int)
  }

  /** The ASCII digit whose value is `v`. */
  function DigitChar(v: nat): (c: char)
    requires v < 10
    ensures IsDigit(c) && DigitValue(c) == v
  {
    ((('0' as int) + v) as char)
  }

  /** The text with every character other than an ASCII digit removed, as
      `replace(/[^\d]/g, '')` does. */
  function StripNonDigits(s: string): (r: string)
    ensures AllDigits(r)
    ensures |r| <= |s|
  {
    if s == [] then []
    else (if IsDigit(s[0]) then [s[0]] else []) + StripNonDigits(s[1..])
  }

  /** Stripping leaves a text of digits untouched, so it is idempotent. */
  lemma {:induction false} StripDigitsIdentity(s: string)
    requires AllDigits(s)
    ensures StripNonDigits(s) == s
  {
    if s != [] {
      StripDigitsIdentity(s[1..]);
    }
  }

  /** Stripping works piecewise: the digits kept are those of each part, in order. */
  lemma {:induction false} StripConcat(a: string, b: string)
    ensures StripNonDigits(a + b) == StripNonDigits(a) + StripNonDigits(b)
  {
    if a == [] {
      assert a + b == b;
    } else {
      assert (a + b)[1..] == a[1..] + b;
      StripConcat(a[1..], b);
    }
  }

  /** The test `/^(\d)\1{n-1}$/` on a text of digits: one digit repeated. */
  predicate AllSame(s: string) {
    forall i :: 0 <= i < |s| ==> s[i] == s[0]
  }

  /** Sum of `DigitValue(d[i]) * (top - i)` for `i < k`: the CPF weighting,
      descending from `top` at the first digit. */
  function CpfTerms(d: string, k: nat, top: int): int
    requires k <= |d| && AllDigits(d)
  {
    if k == 0 then 0
    else CpfTerms(d, k - 1, top) + DigitValue(d[k - 1]) * (top - (k - 1))
  }

  /** The CNPJ weight of position `i` among `n` base digits: 2 at the rightmost
      digit, rising by one per position to the left, back to 2 after 9. */
  function CnpjWeight(n: int, i: int): (w: int)
    ensures 2 <= w <= 9
  {
    2 + (n - 1 - i) % 8
  }

  /** Sum of `DigitValue(d[i]) * CnpjWeight(n, i)` for `i < k`. */
  function CnpjTerms(d: string, k: nat, n: int): int
    requires k <= |d| && AllDigits(d)
  {
    if k == 0 then 0
    else CnpjTerms(d, k - 1, n) + DigitValue(d[k - 1]) * CnpjWeight(n, k - 1)
  }

  /** CPF check digit of a weighted sum: `11 - sum % 11`, collapsed to 0 from 10 up. */
  function CpfDigit(sum: int): (v: nat)
    ensures v < 10
  {
    var d := 11 - sum % 11;
    if d >= 10 then 0 else d
  }

  /** CNPJ check digit of a weighted sum: 0 when `sum % 11 < 2`, else `11 - sum % 11`. */
  function CnpjDigit(sum: int): (v: nat)
    ensures v < 10
  {
    if sum % 11 < 2 then 0 else 11 - sum % 11
  }

  /** Both CPF check digits of an 11-digit text hold: digit 10 over the first
      nine digits with weights 10..2, digit 11 over the first ten with 11..2. */
  predicate CpfDigitsHold(c: string)
    requires |c| == 11 && AllDigits(c)
  {
    && CpfDigit(CpfTerms(c, 9, 10)) == DigitValue(c[9])
    && CpfDigit(CpfTerms(c, 10, 11)) == DigitValue(c[10])
  }

  /** Both CNPJ check digits of a 14-digit text hold: digit 13 over the first
      twelve digits (weights 5,4,3,2,9..2), digit 14 over the first thirteen
      (weights 6,5,4,3,2,9..2). */
  predicate CnpjDigitsHold(c: string)
    requires |c| == 14 && AllDigits(c)
  {
    && CnpjDigit(CnpjTerms(c, 12, 12)) == DigitValue(c[12])
    && CnpjDigit(CnpjTerms(c, 13, 13)) == DigitValue(c[13])
  }

  /** `validateCPF`: strip, demand 11 digits, refuse a repeated digit, check both digits. */
  function ValidateCpf(raw: string): (ok: bool)
    ensures ok ==> |StripNonDigits(raw)| == 11 && !AllSame(StripNonDigits(raw))
    ensures |StripNonDigits(raw)| == 11 && !AllSame(StripNonDigits(raw))
            ==> (ok <==> CpfDigitsHold(StripNonDigits(raw)))
  {
    var c := StripNonDigits(raw);
    if |c| != 11 then false
    else if AllSame(c) then false
    else CpfDigitsHold(c)
  }

  /** `validateCNPJ`: strip, demand 14 digits, refuse a repeated digit, check both digits. */
  function ValidateCnpj(raw: string): (ok: bool)
    ensures ok ==> |StripNonDigits(raw)| == 14 && !AllSame(StripNonDigits(raw))
    ensures |StripNonDigits(raw)| == 14 && !AllSame(StripNonDigits(raw))
            ==> (ok <==> CnpjDigitsHold(StripNonDigits(raw)))
  {
    var c := StripNonDigits(raw);
    if |c| != 14 then false
    else if AllSame(c) then false
    else CnpjDigitsHold(c)
  }

  /** `validateDocument`: the cleaned length chooses CPF (11) or CNPJ (14);
      every other length is refused. It is total: no input makes it fail. */
  function ValidateDocument(raw: string): (ok: bool)
    ensures ok ==> |StripNonDigits(raw)| == 11 || |StripNonDigits(raw)| == 14
    ensures ok ==> !AllSame(StripNonDigits(raw))
    ensures |StripNonDigits(raw)| == 11 ==> (ok <==> CpfDigitsHold(StripNonDigits(raw)) && !AllSame(StripNonDigits(raw)))
    ensures |StripNonDigits(raw)| == 14 ==> (ok <==> CnpjDigitsHold(StripNonDigits(raw)) && !AllSame(StripNonDigits(raw)))
  {
    var clean := StripNonDigits(raw);
    StripDigitsIdentity(clean);
    if |clean| == 11 then ValidateCpf(clean)
    else if |clean| == 14 then ValidateCnpj(clean)
    else false
  }

  // ---------------------------------------------------------------------
  // The loops of `validateCPF` and `validateCNPJ`, shown to compute the
  // weighted sums above.

  /** The CPF loop `for (i = 0; i < count; i++) sum += digit(i) * (top - i)`. */
  method CpfLoopSum(cpf: string, count: nat, top: int) returns (sum: int)
    requires count <= |cpf| && AllDigits(cpf)
    ensures sum == CpfTerms(cpf, count, top)
  {
    sum := 0;
    var i := 0;
    while i < count
      invariant 0 <= i <= count
      invariant sum == CpfTerms(cpf, i, top)
    {
      sum := sum + DigitValue(cpf[i]) * (top - i);
      i := i + 1;
    }
  }

  /** The CNPJ loop: `pos` starts at `size - 7`, is used and decremented per
      digit, and wraps from below 2 back to 9. For the sizes the validator
      uses (12 and 13) the running weight is `CnpjWeight(size, index)`. */
  method CnpjLoopSum(numbers: string, size: nat) returns (sum: int)
    requires 9 <= size <= 16 && size <= |numbers| && AllDigits(numbers)
    ensures sum == CnpjTerms(numbers, size, size)
  {
    sum := 0;
    var pos := size - 7;
    var i := size;
    while i >= 1
      invariant 0 <= i <= size
      invariant pos == CnpjWeight(size, size - i)
      invariant sum == CnpjTerms(numbers, size - i, size)
    {
      sum := sum + DigitValue(numbers[size - i]) * pos;
      CnpjWeightStep(size, size - i);
      pos := pos - 1;
      if pos < 2 {
        pos := 9;
      }
      i := i - 1;
    }
  }

  /** Moving one digit to the right lowers the CNPJ weight by one, except
      that below 2 it wraps back to 9. */
  lemma CnpjWeightStep(n: int, i: int)
    ensures CnpjWeight(n, i + 1) == if CnpjWeight(n, i) - 1 < 2 then 9 else CnpjWeight(n, i) - 1
  {
  }

  /** `validateCPF` as written, loops and early returns included. */
  method ValidateCpfLoop(raw: string) returns (ok: bool)
    ensures ok == ValidateCpf(raw)
  {
    var cpf := StripNonDigits(raw);
    if |cpf| != 11 {
      return false;
    }
    if AllSame(cpf) {
      return false;
    }
    var sum := CpfLoopSum(cpf, 9, 10);
    var digit := 11 - sum % 11;
    if digit >= 10 {
      digit := 0;
    }
    if digit != DigitValue(cpf[9]) {
      return false;
    }
    sum := CpfLoopSum(cpf, 10, 11);
    digit := 11 - sum % 11;
    if digit >= 10 {
      digit := 0;
    }
    if digit != DigitValue(cpf[10]) {
      return false;
    }
    return true;
  }

  /** `validateCNPJ` as written, loops and early returns included. */
  method ValidateCnpjLoop(raw: string) returns (ok: bool)
    ensures ok == ValidateCnpj(raw)
  {
    var cnpj := StripNonDigits(raw);
    if |cnpj| != 14 {
      return false;
    }
    if AllSame(cnpj) {
      return false;
    }
    var size := |cnpj| - 2;
    var sum := CnpjLoopSum(cnpj, size);
    var result := if sum % 11 < 2 then 0 else 11 - sum % 11;
    if result != DigitValue(cnpj[size]) {
      return false;
    }
    size := size + 1;
    sum := CnpjLoopSum(cnpj, size);
    result := if sum % 11 < 2 then 0 else 11 - sum % 11;
    if result != DigitValue(cnpj[13]) {
      return false;
    }
    return true;
  }

  // ---------------------------------------------------------------------
  // Completion: the check digits the scheme computes for a base, and the
  // characterisation of acceptance through it.

  /** The weighted sums read only the first `k` digits. */
  lemma {:induction false} CpfTermsPrefix(a: string, b: string, k: nat, top: int)
    requires k <= |a| && k <= |b| && AllDigits(a) && AllDigits(b)
    requires a[..k] == b[..k]
    ensures CpfTerms(a, k, top) == CpfTerms(b, k, top)
  {
    if k > 0 {
      assert a[k - 1] == a[..k][k - 1] == b[..k][k - 1] == b[k - 1];
      assert a[..k - 1] == a[..k][..k - 1];
      assert b[..k - 1] == b[..k][..k - 1];
      CpfTermsPrefix(a, b, k - 1, top);
    }
  }

  lemma {:induction false} CnpjTermsPrefix(a: string, b: string, k: nat, n: int)
    requires k <= |a| && k <= |b| && AllDigits(a) && AllDigits(b)
    requires a[..k] == b[..k]
    ensures CnpjTerms(a, k, n) == CnpjTerms(b, k, n)
  {
    if k > 0 {
      assert a[k - 1] == a[..k][k - 1] == b[..k][k - 1] == b[k - 1];
      assert a[..k - 1] == a[..k][..k - 1];
      assert b[..k - 1] == b[..k][..k - 1];
      CnpjTermsPrefix(a, b, k - 1, n);
    }
  }

  /** The 11-digit CPF whose first nine digits are `base`, with both check
      digits computed as the validator computes them. */
  function CompleteCpf(base: string): (c: string)
    requires |base| == 9 && AllDigits(base)
    ensures |c| == 11 && AllDigits(c) && c[..9] == base
  {
    var first := base + [DigitChar(CpfDigit(CpfTerms(base, 9, 10)))];
    first + [DigitChar(CpfDigit(CpfTerms(first, 10, 11)))]
  }

  /** The 14-digit CNPJ whose first twelve digits are `base`, with both check
      digits computed as the validator computes them. */
  function CompleteCnpj(base: string): (c: string)
    requires |base| == 12 && AllDigits(base)
    ensures |c| == 14 && AllDigits(c) && c[..12] == base
  {
    var first := base + [DigitChar(CnpjDigit(CnpjTerms(base, 12, 12)))];
    first + [DigitChar(CnpjDigit(CnpjTerms(first, 13, 13)))]
  }

  lemma DigitCharOfValue(c: char)
    requires IsDigit(c)
    ensures DigitChar(DigitValue(c)) == c
  {
  }

  /** An 11-digit document is accepted exactly when it is not one repeated
      digit and it is the completion of its own first nine digits. */
  lemma CpfAcceptedIffComplete(raw: string)
    requires |StripNonDigits(raw)| == 11
    ensures var c := StripNonDigits(raw);
            ValidateDocument(raw) <==> !AllSame(c) && c == CompleteCpf(c[..9])
  {
    var c := StripNonDigits(raw);
    var base := c[..9];
    var first := base + [DigitChar(CpfDigit(CpfTerms(base, 9, 10)))];
    CpfTermsPrefix(c, base, 9, 10);
    if CpfDigitsHold(c) {
      DigitCharOfValue(c[9]);
      DigitCharOfValue(c[10]);
      assert c[..10] == first;
      CpfTermsPrefix(c, first, 10, 11);
      assert c == CompleteCpf(base);
    }
    if c == CompleteCpf(base) {
      assert c[..10] == first;
      CpfTermsPrefix(c, first, 10, 11);
    }
  }

  /** A 14-digit document is accepted exactly when it is not one repeated
      digit and it is the completion of its own first twelve digits. */
  lemma CnpjAcceptedIffComplete(raw: string)
    requires |StripNonDigits(raw)| == 14
    ensures var c := StripNonDigits(raw);
            ValidateDocument(raw) <==> !AllSame(c) && c == CompleteCnpj(c[..12])
  {
    var c := StripNonDigits(raw);
    var base := c[..12];
    var first := base + [DigitChar(CnpjDigit(CnpjTerms(base, 12, 12)))];
    CnpjTermsPrefix(c, base, 12, 12);
    if CnpjDigitsHold(c) {
      DigitCharOfValue(c[12]);
      DigitCharOfValue(c[13]);
      assert c[..13] == first;
      CnpjTermsPrefix(c, first, 13, 13);
      assert c == CompleteCnpj(base);
    }
    if c == CompleteCnpj(base) {
      assert c[..13] == first;
      CnpjTermsPrefix(c, first, 13, 13);
    }
  }

  /** Round trip: completing any nine-digit base yields an accepted CPF,
      unless the completion is one repeated digit. */
  lemma CompletedCpfAccepted(base: string)
    requires |base| == 9 && AllDigits(base)
    requires !AllSame(CompleteCpf(base))
    ensures ValidateDocument(CompleteCpf(base))
  {
    var c := CompleteCpf(base);
    StripDigitsIdentity(c);
    CpfAcceptedIffComplete(c);
  }

  /** Round trip: completing any twelve-digit base yields an accepted CNPJ,
      unless the completion is one repeated digit. */
  lemma CompletedCnpjAccepted(base: string)
    requires |base| == 12 && AllDigits(base)
    requires !AllSame(CompleteCnpj(base))
    ensures ValidateDocument(CompleteCnpj(base))
  {
    var c := CompleteCnpj(base);
    StripDigitsIdentity(c);
    CnpjAcceptedIffComplete(c);
  }

  /** The check digits are determined: two accepted CPFs that share their
      first nine digits are the same number. */
  lemma CpfCheckDigitsDetermined(a: string, b: string)
    requires |a| == 11 && |b| == 11 && AllDigits(a) && AllDigits(b)
    requires a[..9] == b[..9]
    requires ValidateDocument(a) && ValidateDocument(b)
    ensures a == b
  {
    StripDigitsIdentity(a);
    StripDigitsIdentity(b);
    CpfAcceptedIffComplete(a);
    CpfAcceptedIffComplete(b);
  }

  /** The same for CNPJs: two accepted CNPJs that share their first twelve
      digits are the same number. */
  lemma CnpjCheckDigitsDetermined(a: string, b: string)
    requires |a| == 14 && |b| == 14 && AllDigits(a) && AllDigits(b)
    requires a[..12] == b[..12]
    requires ValidateDocument(a) && ValidateDocument(b)
    ensures a == b
  {
    StripDigitsIdentity(a);
    StripDigitsIdentity(b);
    CnpjAcceptedIffComplete(a);
    CnpjAcceptedIffComplete(b);
  }

  /** One digit repeated is refused at every length, before any checksum. */
  lemma RepeatedDigitRejected(d: char, n: nat)
    requires IsDigit(d)
    ensures !ValidateDocument(seq(n, _ => d))
  {
    var s := seq(n, _ => d);
    StripDigitsIdentity(s);
  }

  /** The valid CPF of the service tests, "52998224725", is accepted however
      it is punctuated. */
  lemma ValidCpfFixture(raw: string)
    requires StripNonDigits(raw) == "52998224725"
    ensures ValidateDocument(raw)
  {
    var c := "52998224725";
    assert !AllSame(c) by { assert c[1] != c[0]; }
    assert CpfTerms(c, 1, 10) == 50;
    assert CpfTerms(c, 2, 10) == 68;
    assert CpfTerms(c, 3, 10) == 140;
    assert CpfTerms(c, 4, 10) == 203;
    assert CpfTerms(c, 5, 10) == 251;
    assert CpfTerms(c, 6, 10) == 261;
    assert CpfTerms(c, 7, 10) == 269;
    assert CpfTerms(c, 8, 10) == 281;
    assert CpfTerms(c, 9, 10) == 295;
    assert CpfTerms(c, 1, 11) == 55;
    assert CpfTerms(c, 2, 11) == 75;
    assert CpfTerms(c, 3, 11) == 156;
    assert CpfTerms(c, 4, 11) == 228;
    assert CpfTerms(c, 5, 11) == 284;
    assert CpfTerms(c, 6, 11) == 296;
    assert CpfTerms(c, 7, 11) == 306;
    assert CpfTerms(c, 8, 11) == 322;
    assert CpfTerms(c, 9, 11) == 343;
    assert CpfTerms(c, 10, 11) == 347;
  }

  /** "123.456.789-00", or any other punctuation of those digits, is refused:
      its first check digit holds, but the second computes to 9, not 0. */
  lemma InvalidCpfFixture(raw: string)
    requires StripNonDigits(raw) == "12345678900"
    ensures CpfDigit(CpfTerms(StripNonDigits(raw), 9, 10)) == 0
    ensures CpfDigit(CpfTerms(StripNonDigits(raw), 10, 11)) == 9
    ensures !ValidateDocument(raw)
  {
    var c := "12345678900";
    assert CpfTerms(c, 1, 10) == 10;
    assert CpfTerms(c, 2, 10) == 28;
    assert CpfTerms(c, 3, 10) == 52;
    assert CpfTerms(c, 4, 10) == 80;
    assert CpfTerms(c, 5, 10) == 110;
    assert CpfTerms(c, 6, 10) == 140;
    assert CpfTerms(c, 7, 10) == 168;
    assert CpfTerms(c, 8, 10) == 192;
    assert CpfTerms(c, 9, 10) == 210;
    assert CpfTerms(c, 1, 11) == 11;
    assert CpfTerms(c, 2, 11) == 31;
    assert CpfTerms(c, 3, 11) == 58;
    assert CpfTerms(c, 4, 11) == 90;
    assert CpfTerms(c, 5, 11) == 125;
    assert CpfTerms(c, 6, 11) == 161;
    assert CpfTerms(c, 7, 11) == 196;
    assert CpfTerms(c, 8, 11) == 228;
    assert CpfTerms(c, 9, 11) == 255;
    assert CpfTerms(c, 10, 11) == 255;
  }

  /** The CNPJ "11.222.333/0001-81" is accepted however it is punctuated:
      the first sum is 102, giving 8; the second is 120, giving 1. */
  lemma ValidCnpjFixture(raw: string)
    requires StripNonDigits(raw) == "11222333000181"
    ensures ValidateDocument(raw)
  {
    var c := "11222333000181";
    assert !AllSame(c) by { assert c[2] != c[0]; }
    FixtureCnpjFirstSum(c);
    FixtureCnpjSecondSum(c);
    assert CnpjDigitsHold(c);
  }

  /** Changing the last digit of that CNPJ to 2 makes it refused: the second
      check digit still computes to 1. */
  lemma InvalidCnpjFixture(raw: string)
    requires StripNonDigits(raw) == "11222333000182"
    ensures CnpjDigit(CnpjTerms(StripNonDigits(raw), 13, 13)) == 1
    ensures !ValidateDocument(raw)
  {
    var good := "11222333000181";
    var c := StripNonDigits(raw);
    FixtureCnpjSecondSum(good);
    assert c[..13] == good[..13];
    CnpjTermsPrefix(c, good, 13, 13);
    assert DigitValue(c[13]) == 2;
  }

  /** The first CNPJ check sum of the fixture, weights 5,4,3,2,9..2. */
  lemma FixtureCnpjFirstSum(c: string)
    requires c == "11222333000181"
    ensures CnpjTerms(c, 12, 12) == 102
  {
    assert DigitValue(c[0]) == 1 && CnpjWeight(12, 0) == 5;
    assert CnpjTerms(c, 1, 12) == 5;
    assert DigitValue(c[1]) == 1 && CnpjWeight(12, 1) == 4;
    assert CnpjTerms(c, 2, 12) == 9;
    assert DigitValue(c[2]) == 2 && CnpjWeight(12, 2) == 3;
    assert CnpjTerms(c, 3, 12) == 15;
    assert DigitValue(c[3]) == 2 && CnpjWeight(12, 3) == 2;
    assert CnpjTerms(c, 4, 12) == 19;
    assert DigitValue(c[4]) == 2 && CnpjWeight(12, 4) == 9;
    assert CnpjTerms(c, 5, 12) == 37;
    assert DigitValue(c[5]) == 3 && CnpjWeight(12, 5) == 8;
    assert CnpjTerms(c, 6, 12) == 61;
    assert DigitValue(c[6]) == 3 && CnpjWeight(12, 6) == 7;
    assert CnpjTerms(c, 7, 12) == 82;
    assert DigitValue(c[7]) == 3 && CnpjWeight(12, 7) == 6;
    assert CnpjTerms(c, 8, 12) == 100;
    assert DigitValue(c[8]) == 0 && CnpjWeight(12, 8) == 5;
    assert CnpjTerms(c, 9, 12) == 100;
    assert DigitValue(c[9]) == 0 && CnpjWeight(12, 9) == 4;
    assert CnpjTerms(c, 10, 12) == 100;
    assert DigitValue(c[10]) == 0 && CnpjWeight(12, 10) == 3;
    assert CnpjTerms(c, 11, 12) == 100;
    assert DigitValue(c[11]) == 1 && CnpjWeight(12, 11) == 2;
    assert CnpjTerms(c, 12, 12) == 102;
  }

  /** The second CNPJ check sum of the fixture, weights 6,5,4,3,2,9..2. */
  lemma FixtureCnpjSecondSum(c: string)
    requires c == "11222333000181"
    ensures CnpjTerms(c, 13, 13) == 120
  {
    assert DigitValue(c[0]) == 1 && CnpjWeight(13, 0) == 6;
    assert CnpjTerms(c, 1, 13) == 6;
    assert DigitValue(c[1]) == 1 && CnpjWeight(13, 1) == 5;
    assert CnpjTerms(c, 2, 13) == 11;
    assert DigitValue(c[2]) == 2 && CnpjWeight(13, 2) == 4;
    assert CnpjTerms(c, 3, 13) == 19;
    assert DigitValue(c[3]) == 2 && CnpjWeight(13, 3) == 3;
    assert CnpjTerms(c, 4, 13) == 25;
    assert DigitValue(c[4]) == 2 && CnpjWeight(13, 4) == 2;
    assert CnpjTerms(c, 5, 13) == 29;
    assert DigitValue(c[5]) == 3 && CnpjWeight(13, 5) == 9;
    assert CnpjTerms(c, 6, 13) == 56;
    assert DigitValue(c[6]) == 3 && CnpjWeight(13, 6) == 8;
    assert CnpjTerms(c, 7, 13) == 80;
    assert DigitValue(c[7]) == 3 && CnpjWeight(13, 7) == 7;
    assert CnpjTerms(c, 8, 13) == 101;
    assert DigitValue(c[8]) == 0 && CnpjWeight(13, 8) == 6;
    assert CnpjTerms(c, 9, 13) == 101;
    assert DigitValue(c[9]) == 0 && CnpjWeight(13, 9) == 5;
    assert CnpjTerms(c, 10, 13) == 101;
    assert DigitValue(c[10]) == 0 && CnpjWeight(13, 10) == 4;
    assert CnpjTerms(c, 11, 13) == 101;
    assert DigitValue(c[11]) == 1 && CnpjWeight(13, 11) == 3;
    assert CnpjTerms(c, 12, 13) == 104;
    assert DigitValue(c[12]) == 8 && CnpjWeight(13, 12) == 2;
    assert CnpjTerms(c, 13, 13) == 120;
  }
}

=== FILE: express_service.dfy ===
/** The Express backend's `ProducerService`: the checks `create` and `update`
    run before saving, `delete`, and the dashboard over producers that carry
    a flat list of crop names. */
module ExpressService {
  import opened Wrappers
  import opened Tally
  import opened DocumentValidator

  /** A stored producer; `crops` is the `simple-array` column. */
  datatype Producer = Producer(
    id: int,
    name: string,
    document: string,
    farmName: string,
    city: string,
    state: string,
    totalArea: real,
    arableArea: real,
    vegetationArea: real,
    crops: seq<string>)

  /** The body of a create request. */
  datatype ProducerInput = ProducerInput(
    name: string,
    document: string,
    farmName: string,
    city: string,
    state: string,
    totalArea: real,
    arableArea: real,
    vegetationArea: real,
    crops: seq<string>)

  /** The body of an update request: any subset of the fields. */
  datatype ProducerPatch = ProducerPatch(
    name: Option<string>,
    document: Option<string>,
    farmName: Option<string>,
    city: Option<string>,
    state: Option<string>,
    totalArea: Option<real>,
    arableArea: Option<real>,
    vegetationArea: Option<real>,
    crops: Option<seq<string>>)

  type Store = map<int, Producer>

  /** The errors the service throws; `Invalid` carries the first message
      class-validator reports. */
  datatype Error =
    | InvalidDocument
    | AreaExceedsTotal
    | Invalid(message: string)
    | NotFound

  /** The message each error is thrown with. */
  function Message(e: Error): string {
    match e
    case InvalidDocument => "CPF/CNPJ inválido"
    case AreaExceedsTotal => "A soma da área agricultável e vegetação não pode ser maior que a área total"
    case Invalid(m) => m
    case NotFound => "Produtor não encontrado"
  }

  datatype Response<T> = Response(store: Store, outcome: Result<T, Error>)

  /** The area rule: arable plus vegetation must not exceed the total. */
  predicate AreaExceeds(p: Producer) {
    p.arableArea + p.vegetationArea > p.totalArea
  }

  function FromInput(id: int, input: ProducerInput): Producer {
    Producer(id, input.name, input.document, input.farmName, input.city, input.state,
             input.totalArea, input.arableArea, input.vegetationArea, input.crops)
  }

  /** The patch that sends no field. */
  const NoChange := ProducerPatch(None, None, None, None, None, None, None, None, None)

  /** `Object.assign(producer, producerData)`: every field the patch sends
      replaces the loaded one; the id stays. */
  function Assign(p: Producer, patch: ProducerPatch): (r: Producer)
    ensures r.id == p.id
    ensures patch == NoChange ==> r == p
    ensures r.name == patch.name.GetOr(p.name)
    ensures r.document == patch.document.GetOr(p.document)
    ensures r.farmName == patch.farmName.GetOr(p.farmName)
    ensures r.city == patch.city.GetOr(p.city)
    ensures r.state == patch.state.GetOr(p.state)
    ensures r.totalArea == patch.totalArea.GetOr(p.totalArea)
    ensures r.arableArea == patch.arableArea.GetOr(p.arableArea)
    ensures r.vegetationArea == patch.vegetationArea.GetOr(p.vegetationArea)
    ensures r.crops == patch.crops.GetOr(p.crops)
  {
    Producer(
      p.id,
      patch.name.GetOr(p.name),
      patch.document.GetOr(p.document),
      patch.farmName.GetOr(p.farmName),
      patch.city.GetOr(p.city),
      patch.state.GetOr(p.state),
      patch.totalArea.GetOr(p.totalArea),
      patch.arableArea.GetOr(p.arableArea),
      patch.vegetationArea.GetOr(p.vegetationArea),
      patch.crops.GetOr(p.crops))
  }

  /** `create`. The document is checked first, then the area rule, then
      class-validator, whose first message (if any) is `validation`; only a
      producer passing all three is saved, under the id the store assigns. */
  function Create(store: Store, input: ProducerInput, validation: Option<string>, newId: int)
    : (r: Response<Producer>)
    requires newId !in store
    ensures r.outcome.Success? <==>
              ValidateDocument(input.document) && !AreaExceeds(FromInput(newId, input))
              && validation.None?
    ensures r.outcome.Failure? ==> r.store == store
    ensures !ValidateDocument(input.document) ==> r.outcome == Failure(InvalidDocument)
    ensures ValidateDocument(input.document) && AreaExceeds(FromInput(newId, input))
            ==> r.outcome == Failure(AreaExceedsTotal)
    ensures (ValidateDocument(input.document) && !AreaExceeds(FromInput(newId, input))
             && validation.Some?) ==> r.outcome == Failure(Invalid(validation.value))
    ensures r.outcome.Success? ==>
              && r.outcome.value == FromInput(newId, input)
              && r.store == store[newId := r.outcome.value]
  {
    if !ValidateDocument(input.document) then Response(store, Failure(InvalidDocument))
    else
      var p := FromInput(newId, input);
      if AreaExceeds(p) then Response(store, Failure(AreaExceedsTotal))
      else if validation.Some? then Response(store, Failure(Invalid(validation.value)))
      else Response(store[newId := p], Success(p))
  }

  /** The document guard of `update`: only a non-empty new document is checked. */
  predicate DocumentRejected(patch: ProducerPatch) {
    patch.document.Some? && patch.document.value != "" && !ValidateDocument(patch.document.value)
  }

  /** `update`. A missing id fails first; then a non-empty new document is
      checked; then the area rule and class-validator run on the merged
      producer. Only a producer passing all of them replaces the stored one. */
  function Update(store: Store, id: int, patch: ProducerPatch, validation: Option<string>)
    : (r: Response<Producer>)
    ensures r.outcome.Success? <==>
              id in store && !DocumentRejected(patch)
              && !AreaExceeds(Assign(store[id], patch)) && validation.None?
    ensures r.outcome.Failure? ==> r.store == store
    ensures id !in store ==> r.outcome == Failure(NotFound)
    ensures id in store && DocumentRejected(patch) ==> r.outcome == Failure(InvalidDocument)
    ensures (id in store && !DocumentRejected(patch) && AreaExceeds(Assign(store[id], patch)))
            ==> r.outcome == Failure(AreaExceedsTotal)
    ensures (id in store && !DocumentRejected(patch) && !AreaExceeds(Assign(store[id], patch))
             && validation.Some?) ==> r.outcome == Failure(Invalid(validation.value))
    ensures r.outcome.Success? ==>
              && r.outcome.value == Assign(store[id], patch)
              && r.store == store[id := r.outcome.value]
  {
    if id !in store then Response(store, Failure(NotFound))
    else if DocumentRejected(patch) then Response(store, Failure(InvalidDocument))
    else
      var merged := Assign(store[id], patch);
      if AreaExceeds(merged) then Response(store, Failure(AreaExceedsTotal))
      else if validation.Some? then Response(store, Failure(Invalid(validation.value)))
      else Response(store[id := merged], Success(merged))
  }

  /** An empty document in the patch is not checked and, the other checks
      passing, replaces the stored document. */
  lemma UpdateStoresEmptyDocument(store: Store, id: int, patch: ProducerPatch)
    requires id in store && patch.document == Some("")
    requires !AreaExceeds(Assign(store[id], patch))
    ensures var r := Update(store, id, patch, None);
            r.outcome.Success? && r.store[id].document == ""
  {
  }

  /** A patch that changes only the name still fails when the stored
      producer already breaks the area rule: the rule is checked on the
      merged producer, not on the patch. */
  lemma UpdateChecksMergedAreas(store: Store, id: int, name: string)
    requires id in store && AreaExceeds(store[id])
    ensures var patch := ProducerPatch(Some(name), None, None, None, None, None, None, None, None);
            Update(store, id, patch, None) == Response(store, Failure(AreaExceedsTotal))
  {
  }

  /** `delete`: no affected row means NotFound and nothing is removed. */
  function Delete(store: Store, id: int): (r: Response<()>)
    ensures id !in store ==> r == Response(store, Failure(NotFound))
    ensures id in store ==> r.outcome.Success? && r.store.Keys == store.Keys - {id}
    ensures forall k :: k in r.store ==> k in store && r.store[k] == store[k]
  {
    if id !in store then Response(store, Failure(NotFound))
    else Response(store - {id}, Success(()))
  }

  // ---------------------------------------------------------------------
  // getDashboardData

  datatype SoilUse = SoilUse(arableArea: real, vegetationArea: real)

  datatype Dashboard = Dashboard(
    totalFarms: nat,
    totalArea: real,
    stateCount: map<string, nat>,
    cropCount: map<string, nat>,
    soilUse: SoilUse)

  function TotalAreaOf(p: Producer): real { p.totalArea }
  function ArableAreaOf(p: Producer): real { p.arableArea }
  function VegetationAreaOf(p: Producer): real { p.vegetationArea }
  function StateOf(p: Producer): string { p.state }
  function Name(c: string): string { c }
  function CropListLength(p: Producer): nat { |p.crops| }

  /** The number of times a producer lists `c`. */
  function Occurrences(c: string): Producer -> nat {
    (p: Producer) => CountIf(p.crops, HasKey(Name, c))
  }

  /** `producer.crops.forEach(crop => acc[crop] = (acc[crop] || 0) + 1)`, producer by producer. */
  function CountCrops(acc: map<string, nat>, ps: seq<Producer>): (r: map<string, nat>)
    decreases |ps|
  {
    if ps == [] then acc else CountCrops(BumpEach(acc, ps[0].crops, Name), ps[1..])
  }

  /** `getDashboardData`. */
  function GetDashboardData(ps: seq<Producer>): (d: Dashboard)
    ensures d.totalFarms == |ps|
  {
    Dashboard(
      |ps|,
      FoldSum(0.0, ps, TotalAreaOf),
      BumpEach(map[], ps, StateOf),
      CountCrops(map[], ps),
      SoilUse(FoldSum(0.0, ps, ArableAreaOf), FoldSum(0.0, ps, VegetationAreaOf)))
  }

  lemma {:induction false} CountCropsSpec(acc: map<string, nat>, ps: seq<Producer>)
    ensures forall c :: Get(CountCrops(acc, ps), c) == Get(acc, c) + SumNat(ps, Occurrences(c))
    ensures Positive(acc) ==> Positive(CountCrops(acc, ps))
    ensures Total(CountCrops(acc, ps)) == Total(acc) + SumNat(ps, CropListLength)
    decreases |ps|
  {
    if ps != [] {
      BumpEachCounts(acc, ps[0].crops, Name);
      BumpEachTotal(acc, ps[0].crops, Name);
      CountCropsSpec(BumpEach(acc, ps[0].crops, Name), ps[1..]);
    }
  }

  /** The totals, the producers per state, and `cropCount[c]` as the number
      of times `c` is listed over all producers; the crop counters add up to
      the total length of the crop lists. */
  lemma DashboardDataCounts(ps: seq<Producer>)
    ensures var d := GetDashboardData(ps);
            && d.totalArea == SumReal(ps, TotalAreaOf)
            && d.soilUse == SoilUse(SumReal(ps, ArableAreaOf), SumReal(ps, VegetationAreaOf))
    ensures Total(GetDashboardData(ps).stateCount) == GetDashboardData(ps).totalFarms
    ensures var d := GetDashboardData(ps);
            forall s :: Get(d.stateCount, s) == CountIf(ps, HasKey(StateOf, s))
                        && (s in d.stateCount <==> CountIf(ps, HasKey(StateOf, s)) > 0)
    ensures var d := GetDashboardData(ps);
            forall c :: Get(d.cropCount, c) == SumNat(ps, Occurrences(c))
                        && (c in d.cropCount <==> SumNat(ps, Occurrences(c)) > 0)
    ensures Total(GetDashboardData(ps).cropCount) == SumNat(ps, CropListLength)
  {
    FoldSumIsSum(0.0, ps, TotalAreaOf);
    FoldSumIsSum(0.0, ps, ArableAreaOf);
    FoldSumIsSum(0.0, ps, VegetationAreaOf);
    BumpEachCounts(map[], ps, StateOf);
    var none: map<string, nat> := map[];
    assert Total(none) == 0;
    StateCountAddsUpToFarms(ps);
    CountCropsSpec(none, ps);
    var d := GetDashboardData(ps);
    forall s ensures s in d.stateCount <==> Get(d.stateCount, s) > 0 {
    }
    forall c ensures c in d.cropCount <==> Get(d.cropCount, c) > 0 {
    }
  }

  /** The producers per state add up to the number of producers. */
  lemma StateCountAddsUpToFarms(ps: seq<Producer>)
    ensures Total(GetDashboardData(ps).stateCount) == GetDashboardData(ps).totalFarms
  {
    var none: map<string, nat> := map[];
    assert Total(none) == 0;
    BumpEachTotal(none, ps, StateOf);
  }

  /** A crop listed twice by one producer counts twice: unlike the Nest
      dashboard, `cropCount` here can exceed the number of farms. */
  lemma RepeatedCropCountsTwice(p: Producer)
    requires p.crops == ["Soja", "Soja"]
    ensures var d := GetDashboardData([p]);
            d.totalFarms == 1 && Get(d.cropCount, "Soja") == 2
  {
    var none: map<string, nat> := map[];
    calc {
      GetDashboardData([p]).cropCount;
      CountCrops(none, [p]);
      { assert [p][1..] == []; }
      BumpEach(none, p.crops, Name);
      { assert p.crops[1..] == ["Soja"]; }
      BumpEach(Bump(none, "Soja"), ["Soja"], Name);
      { assert ["Soja"][1..] == []; }
      BumpEach(Bump(Bump(none, "Soja"), "Soja"), [], Name);
      Bump(Bump(none, "Soja"), "Soja");
    }
  }
}

=== FILE: harvest_grouping.dfy ===
/** `groupHarvestsByYear` of the Nest producers service and the step that
    turns its result into one harvest per year. */
module HarvestGrouping {
  import opened NestEntities

  predicate NoDup<T(==)>(s: seq<T>) {
    forall i, j :: 0 <= i < j < |s| ==> s[i] != s[j]
  }

  /** `if (!list.includes(c)) list.push(c)`. */
  function Push(acc: seq<string>, c: string): seq<string> {
    if c in acc then acc else acc + [c]
  }

  /** Every name of `crops` pushed in order onto `acc`, skipping names
      already present (the `forEach` of `groupHarvestsByYear`). */
  function AppendNew(acc: seq<string>, crops: seq<string>): (r: seq<string>)
    decreases |crops|
  {
    if crops == [] then acc
    else AppendNew(Push(acc, crops[0]), crops[1..])
  }

  /** The pushes extend `acc`, the result holds exactly the names of both,
      and it repeats no name when `acc` repeats none. */
  lemma {:induction false} AppendNewProps(acc: seq<string>, crops: seq<string>)
    ensures var r := AppendNew(acc, crops);
            && |acc| <= |r| && r[..|acc|] == acc
            && (forall x :: x in r <==> x in acc || x in crops)
            && (NoDup(acc) ==> NoDup(r))
    decreases |crops|
  {
    if crops != [] {
      var next := Push(acc, crops[0]);
      AppendNewProps(next, crops[1..]);
      var r := AppendNew(acc, crops);
      assert r[..|next|][..|acc|] == r[..|acc|];
      assert next[..|acc|] == acc;
      assert forall x :: x in crops <==> x == crops[0] || x in crops[1..];
    }
  }

  /** The names of `s`, each once, at its first appearance (`Array.from(new Set(s))`). */
  function Dedup(s: seq<string>): (r: seq<string>)
    ensures NoDup(r)
    ensures forall x :: x in r <==> x in s
  {
    AppendNewProps([], s);
    AppendNew([], s)
  }

  /** Pushing a concatenation is pushing one part after the other. */
  lemma {:induction false} AppendNewConcat(acc: seq<string>, a: seq<string>, b: seq<string>)
    ensures AppendNew(acc, a + b) == AppendNew(AppendNew(acc, a), b)
    decreases |a|
  {
    if a == [] {
      assert a + b == b;
    } else {
      assert (a + b)[1..] == a[1..] + b;
      AppendNewConcat(Push(acc, a[0]), a[1..], b);
    }
  }

  /** Names already present are all skipped. */
  lemma {:induction false} AppendNewKnown(acc: seq<string>, s: seq<string>)
    requires forall x :: x in s ==> x in acc
    ensures AppendNew(acc, s) == acc
    decreases |s|
  {
    if s != [] {
      AppendNewKnown(acc, s[1..]);
    }
  }

  /** Distinct new names are all appended, in order. */
  lemma {:induction false} AppendNewFresh(acc: seq<string>, s: seq<string>)
    requires NoDup(s)
    requires forall x :: x in s ==> x !in acc
    ensures AppendNew(acc, s) == acc + s
    decreases |s|
  {
    if s != [] {
      var next := acc + [s[0]];
      assert s[0] in s;
      assert Push(acc, s[0]) == next;
      assert NoDup(s[1..]);
      forall x | x in s[1..]
        ensures x !in next
      {
        var k :| 0 <= k < |s| - 1 && s[1..][k] == x;
        assert s[k + 1] == x && s[0] != s[k + 1];
      }
      calc {
        AppendNew(acc, s);
        AppendNew(next, s[1..]);
        { AppendNewFresh(next, s[1..]); }
        next + s[1..];
        { assert s == [s[0]] + s[1..]; }
        acc + s;
      }
    }
  }

  /** A list without repeats is its own deduplication. */
  lemma DedupOfDistinct(s: seq<string>)
    requires NoDup(s)
    ensures Dedup(s) == s
  {
    AppendNewFresh([], s);
  }

  /** Pushing the result of a push again changes nothing. */
  lemma AppendNewAbsorbs(acc: seq<string>, r: seq<string>)
    requires NoDup(acc)
    ensures AppendNew(acc, AppendNew(acc, r)) == AppendNew(acc, r)
  {
    var t := AppendNew(acc, r);
    AppendNewProps(acc, r);
    var extra := t[|acc|..];
    assert t == acc + extra;
    assert NoDup(extra);
    assert forall x :: x in extra ==> x !in acc by {
      forall x | x in extra
        ensures x !in acc
      {
        var k :| 0 <= k < |extra| && extra[k] == x;
        assert t[|acc| + k] == x;
      }
    }
    AppendNewConcat(acc, acc, extra);
    AppendNewKnown(acc, acc);
    AppendNewFresh(acc, extra);
  }

  /** Position of the first `x` in `s`. */
  function FirstIndex<T(==)>(s: seq<T>, x: T): (i: nat)
    requires x in s
    ensures i < |s| && s[i] == x && x !in s[..i]
  {
    if s[0] == x then 0
    else
      assert s[1..][..FirstIndex(s[1..], x)] == s[1..FirstIndex(s[1..], x) + 1];
      1 + FirstIndex(s[1..], x)
  }

  lemma FirstIndexPrefix<T>(p: seq<T>, q: seq<T>, x: T)
    requires x in p
    ensures FirstIndex(p + q, x) == FirstIndex(p, x)
  {
    var i := FirstIndex(p, x);
    var j := FirstIndex(p + q, x);
    assert (p + q)[i] == x;
    assert (p + q)[..i] == p[..i];
  }

  /** Deduplication keeps first-appearance order: of two names in the result,
      the earlier one first appears earlier in the input. */
  lemma {:induction false} DedupKeepsFirstAppearanceOrder(s: seq<string>)
    ensures forall i, j :: 0 <= i < j < |Dedup(s)| ==>
              FirstIndex(s, Dedup(s)[i]) < FirstIndex(s, Dedup(s)[j])
    decreases |s|
  {
    if s != [] {
      var p := s[..|s| - 1];
      var x := s[|s| - 1];
      assert s == p + [x];
      DedupKeepsFirstAppearanceOrder(p);
      AppendNewConcat([], p, [x]);
      var d := Dedup(p);
      assert Dedup(s) == Push(d, x);
      forall y | y in d
        ensures FirstIndex(s, y) == FirstIndex(p, y)
      {
        FirstIndexPrefix(p, [x], y);
      }
      if x !in d {
        assert x !in p;
        assert FirstIndex(s, x) == |p|;
        assert Dedup(s) == d + [x];
        forall i, j | 0 <= i < j < |Dedup(s)|
          ensures FirstIndex(s, Dedup(s)[i]) < FirstIndex(s, Dedup(s)[j])
        {
          assert Dedup(s)[i] == d[i] && d[i] in d;
          if j < |d| {
            assert Dedup(s)[j] == d[j] && d[j] in d;
          }
        }
      }
    }
  }

  // ---------------------------------------------------------------------
  // Grouping by year.

  /** The years of a list of harvests. */
  function YearsOf(hs: seq<Harvest>): set<int> {
    set h | h in hs :: h.year
  }

  /** Harvests whose years are `ys`, position by position, have exactly the
      years listed in `ys`. */
  lemma YearsOfIndexed(hs: seq<Harvest>, ys: seq<int>)
    requires |hs| == |ys|
    requires forall i :: 0 <= i < |hs| ==> hs[i].year == ys[i]
    ensures forall y :: y in YearsOf(hs) <==> y in ys
  {
  }

  /** Every crop name reported for year `y`, report by report, repeats kept. */
  function YearCrops(hs: seq<Harvest>, y: int): seq<string> {
    if hs == [] then []
    else (if hs[0].year == y then hs[0].crops else []) + YearCrops(hs[1..], y)
  }

  lemma {:induction false} YearCropsMembers(hs: seq<Harvest>, y: int, c: string)
    ensures c in YearCrops(hs, y) <==> exists h :: h in hs && h.year == y && c in h.crops
  {
    if hs != [] {
      YearCropsMembers(hs[1..], y, c);
      assert forall h :: h in hs <==> h == hs[0] || h in hs[1..];
    }
  }

  /** The names recorded so far for `y`, or none. */
  function Listed(acc: map<int, seq<string>>, y: int): seq<string> {
    if y in acc then acc[y] else []
  }

  /** One step of the `reduce`: create the year's list if needed, then push
      the report's crop names that are not yet listed. */
  function GroupStep(acc: map<int, seq<string>>, h: Harvest): map<int, seq<string>> {
    acc[h.year := AppendNew(Listed(acc, h.year), h.crops)]
  }

  /** The `reduce` of `groupHarvestsByYear`, from `acc`. */
  function GroupFrom(acc: map<int, seq<string>>, hs: seq<Harvest>): map<int, seq<string>>
    decreases |hs|
  {
    if hs == [] then acc else GroupFrom(GroupStep(acc, hs[0]), hs[1..])
  }

  /** The fold's keys are the starting keys and the reported years. */
  lemma {:induction false} GroupFromKeys(acc: map<int, seq<string>>, hs: seq<Harvest>)
    ensures GroupFrom(acc, hs).Keys == acc.Keys + YearsOf(hs)
    decreases |hs|
  {
    if hs != [] {
      GroupFromKeys(GroupStep(acc, hs[0]), hs[1..]);
      assert YearsOf(hs) == {hs[0].year} + YearsOf(hs[1..]) by {
        assert forall g :: g in hs <==> g == hs[0] || g in hs[1..];
      }
    }
  }

  /** The fold extends a year's list by that year's names, in report order. */
  lemma {:induction false} GroupFromValue(acc: map<int, seq<string>>, hs: seq<Harvest>, y: int)
    ensures Listed(GroupFrom(acc, hs), y) == AppendNew(Listed(acc, y), YearCrops(hs, y))
    decreases |hs|
  {
    if hs == [] {
      assert YearCrops(hs, y) == [];
    } else {
      var h := hs[0];
      var step := GroupStep(acc, h);
      GroupFromValue(step, hs[1..], y);
      if y == h.year {
        assert Listed(step, y) == AppendNew(Listed(acc, y), h.crops);
        assert YearCrops(hs, y) == h.crops + YearCrops(hs[1..], y);
        AppendNewConcat(Listed(acc, y), h.crops, YearCrops(hs[1..], y));
      } else {
        assert Listed(step, y) == Listed(acc, y);
        assert YearCrops(hs, y) == YearCrops(hs[1..], y) by {
          assert YearCrops(hs, y) == [] + YearCrops(hs[1..], y);
        }
      }
    }
  }

  lemma GroupFromSpec(hs: seq<Harvest>)
    ensures GroupFrom(map[], hs).Keys == YearsOf(hs)
    ensures forall y :: y in GroupFrom(map[], hs) ==>
              GroupFrom(map[], hs)[y] == Dedup(YearCrops(hs, y))
  {
    GroupFromKeys(map[], hs);
    forall y | y in GroupFrom(map[], hs)
      ensures GroupFrom(map[], hs)[y] == Dedup(YearCrops(hs, y))
    {
      GroupFromValue(map[], hs, y);
    }
  }

  /** `groupHarvestsByYear`: year -> crop names. Each reported year is a key,
      each key is a reported year, and a year's list is that year's names in
      first-appearance order, each once. */
  function GroupHarvestsByYear(hs: seq<Harvest>): (g: map<int, seq<string>>)
    ensures g.Keys == YearsOf(hs)
    ensures forall y :: y in g ==> g[y] == Dedup(YearCrops(hs, y))
  {
    GroupFromSpec(hs);
    GroupFrom(map[], hs)
  }

  /** The (year, crop) pairs of the grouping are exactly those reported, and
      no year lists a crop twice. */
  lemma GroupingKeepsPairs(hs: seq<Harvest>, y: int, c: string)
    ensures var g := GroupHarvestsByYear(hs);
            (y in g && c in g[y]) <==> exists h :: h in hs && h.year == y && c in h.crops
    ensures var g := GroupHarvestsByYear(hs);
            y in g ==> NoDup(g[y])
  {
    YearCropsMembers(hs, y, c);
  }

  /** Grouping twice changes nothing: a list of one harvest per year with
      distinct names groups back to itself. */
  lemma GroupOfMaterialised(hs: seq<Harvest>, y: int)
    requires y in YearsOf(hs)
    ensures var g := GroupHarvestsByYear(hs);
            var regrouped := GroupHarvestsByYear(Materialise(g));
            y in regrouped && regrouped[y] == g[y]
  {
    var g := GroupHarvestsByYear(hs);
    var m := Materialise(g);
    assert y in YearsOf(m) by {
      MaterialiseYears(g);
    }
    assert GroupHarvestsByYear(m)[y] == Dedup(YearCrops(m, y));
    assert Dedup(YearCrops(m, y)) == g[y] by {
      MaterialiseYearCrops(g, y);
      DedupOfDistinct(g[y]);
    }
  }

  // ---------------------------------------------------------------------
  // From the grouping to harvest records.

  predicate Increasing(ys: seq<int>) {
    forall i, j :: 0 <= i < j < |ys| ==> ys[i] < ys[j]
  }

  /** `m` is the least member of `s`. */
  predicate IsMin(s: set<int>, m: int) {
    m in s && forall z :: z in s ==> m <= z
  }

  lemma MinExists(s: set<int>)
    requires s != {}
    ensures exists m :: IsMin(s, m)
    decreases |s|
  {
    if forall y :: y !in s {
      assert false;
    }
    var x :| x in s;
    var t := s - {x};
    if t == {} {
      assert s == {x};
      assert IsMin(s, x);
    } else {
      MinExists(t);
      var m :| IsMin(t, m);
      var least := if x < m then x else m;
      forall z | z in s
        ensures least <= z
      {
        if z != x {
          assert z in t;
        }
      }
      assert IsMin(s, least);
    }
  }

  /** The keys in ascending order: the order `Object.entries` lists the
      integer keys of a plain object. */
  function SortedKeys(s: set<int>): (ys: seq<int>)
    ensures Increasing(ys)
    ensures forall y :: y in ys <==> y in s
    ensures |ys| == |s|
    decreases |s|
  {
    if s == {} then []
    else
      MinExists(s);
      var m :| IsMin(s, m);
      [m] + SortedKeys(s - {m})
  }

  /** One harvest per key of the grouping, years ascending, each holding
      `Array.from(new Set(crops))` of its year's list. */
  function Materialise(g: map<int, seq<string>>): (hs: seq<Harvest>)
    ensures |hs| == |g|
  {
    var ys := SortedKeys(g.Keys);
    seq(|ys|, i requires 0 <= i < |ys| => Harvest(ys[i], Dedup(g[ys[i]])))
  }

  /** The materialised list has one harvest per key, in ascending year order,
      and only keys as years. */
  lemma MaterialiseYears(g: map<int, seq<string>>)
    ensures var hs := Materialise(g);
            (forall i, j :: 0 <= i < j < |hs| ==> hs[i].year < hs[j].year)
            && YearsOf(hs) == g.Keys
  {
    var hs := Materialise(g);
    var ys := SortedKeys(g.Keys);
    assert forall i :: 0 <= i < |hs| ==> hs[i].year == ys[i];
    YearsOfIndexed(hs, ys);
  }

  /** A year's harvest in the materialised list carries that year's names. */
  lemma MaterialiseYearCrops(g: map<int, seq<string>>, y: int)
    requires y in g
    ensures var hs := Materialise(g);
            YearCrops(hs, y) == Dedup(g[y])
  {
    var hs := Materialise(g);
    var ys := SortedKeys(g.Keys);
    var i :| 0 <= i < |ys| && ys[i] == y;
    YearCropsSingle(hs, i);
  }

  /** When years are distinct, a year's reported names are those of its one harvest. */
  lemma {:induction false} YearCropsSingle(hs: seq<Harvest>, i: nat)
    requires i < |hs|
    requires forall a, b :: 0 <= a < b < |hs| ==> hs[a].year < hs[b].year
    ensures YearCrops(hs, hs[i].year) == hs[i].crops
  {
    var y := hs[i].year;
    if i == 0 {
      YearCropsAbsent(hs[1..], y);
      assert YearCrops(hs, y) == hs[0].crops + [];
    } else {
      YearCropsSingle(hs[1..], i - 1);
      assert hs[0].year < y;
    }
  }

  lemma {:induction false} YearCropsAbsent(hs: seq<Harvest>, y: int)
    requires forall h :: h in hs ==> h.year != y
    ensures YearCrops(hs, y) == []
  {
    if hs != [] {
      YearCropsAbsent(hs[1..], y);
    }
  }
}

=== FILE: nest_dashboard.dfy ===
/** `getDashboard` of the Nest producers service: farm count, area sums,
    producers per state, farms per crop over all harvests, and per year the
    number of harvest rows reporting each crop. */
module NestDashboard {
  import opened NestEntities
  import opened HarvestGrouping
  import opened Tally

  datatype SoilUse = SoilUse(totalArea: real, arableArea: real, vegetationArea: real)

  datatype Dashboard = Dashboard(
    totalFarms: nat,
    totalArea: real,
    stateCount: map<string, nat>,
    cropCount: map<string, nat>,
    harvestsByYear: map<int, map<string, nat>>,
    soilUse: SoilUse)

  function TotalAreaOf(p: Producer): real { p.totalArea }
  function ArableAreaOf(p: Producer): real { p.arableArea }
  function VegetationAreaOf(p: Producer): real { p.vegetationArea }
  function StateOf(p: Producer): string { p.state }

  /** The distinct crop names of a producer over all of its harvests
      (`new Set(producer.harvests.flatMap(...))`). */
  function CropsOf(p: Producer): set<string> {
    set h, c | h in p.harvests && c in h.crops :: c
  }

  /** The distinct crop names of one harvest row. */
  function CropSet(h: Harvest): set<string> {
    set c | c in h.crops
  }

  // ---------------------------------------------------------------------
  // harvestsByYear

  /** The year's counters, or none yet. */
  function Row(hy: map<int, map<string, nat>>, y: int): map<string, nat> {
    if y in hy then hy[y] else map[]
  }

  /** One harvest row: create the year's record if missing, then count the
      row once under each of its distinct crop names. */
  function AddHarvest(hy: map<int, map<string, nat>>, h: Harvest): map<int, map<string, nat>> {
    hy[h.year := BumpAll(Row(hy, h.year), CropSet(h))]
  }

  /** `producer.harvests.forEach(...)` over one producer's rows. */
  function AddHarvests(hy: map<int, map<string, nat>>, hs: seq<Harvest>): (r: map<int, map<string, nat>>)
    decreases |hs|
  {
    if hs == [] then hy else AddHarvests(AddHarvest(hy, hs[0]), hs[1..])
  }

  /** The outer `producers.forEach(...)` building `harvestsByYear`. */
  function AddProducers(hy: map<int, map<string, nat>>, ps: seq<Producer>): (r: map<int, map<string, nat>>)
    decreases |ps|
  {
    if ps == [] then hy else AddProducers(AddHarvests(hy, ps[0].harvests), ps[1..])
  }

  /** `getDashboard`. */
  function GetDashboard(ps: seq<Producer>): (d: Dashboard)
    ensures d.totalFarms == |ps|
    ensures d.soilUse.totalArea == d.totalArea
  {
    var totalArea := FoldSum(0.0, ps, TotalAreaOf);
    Dashboard(
      |ps|,
      totalArea,
      BumpEach(map[], ps, StateOf),
      BumpEachSet(map[], ps, CropsOf),
      AddProducers(map[], ps),
      SoilUse(totalArea, FoldSum(0.0, ps, ArableAreaOf), FoldSum(0.0, ps, VegetationAreaOf)))
  }

  // ---------------------------------------------------------------------
  // What the dashboard counts.

  predicate RowsPositive(hy: map<int, map<string, nat>>) {
    forall y :: y in hy ==> Positive(hy[y])
  }

  /** "the row is of year `y` and reports `c`". */
  function Carries(y: int, c: string): Harvest -> bool {
    (h: Harvest) => h.year == y && c in h.crops
  }

  /** The number of a producer's harvest rows of year `y` reporting `c`. */
  function RowsCarrying(y: int, c: string): Producer -> nat {
    (p: Producer) => CountIf(p.harvests, Carries(y, c))
  }

  /** "the producer has a harvest row of year `y`". */
  function HasYear(y: int): Producer -> bool {
    (p: Producer) => y in YearsOf(p.harvests)
  }

  /** One row adds its year as a key and one to each of its crops' counters
      in that year. */
  lemma AddHarvestStep(hy: map<int, map<string, nat>>, h: Harvest)
    ensures AddHarvest(hy, h).Keys == hy.Keys + {h.year}
    ensures forall y, c :: Get(Row(AddHarvest(hy, h), y), c)
                           == Get(Row(hy, y), c) + (if Carries(y, c)(h) then 1 else 0)
    ensures RowsPositive(hy) ==> RowsPositive(AddHarvest(hy, h))
  {
    var next := AddHarvest(hy, h);
    forall y, c
      ensures Get(Row(next, y), c) == Get(Row(hy, y), c) + (if Carries(y, c)(h) then 1 else 0)
    {
      if y == h.year {
        assert Row(next, y) == BumpAll(Row(hy, y), CropSet(h));
        assert c in CropSet(h) <==> c in h.crops;
      } else {
        assert Row(next, y) == Row(hy, y);
      }
    }
  }

  lemma {:induction false} AddHarvestsSpec(hy: map<int, map<string, nat>>, hs: seq<Harvest>)
    ensures AddHarvests(hy, hs).Keys == hy.Keys + YearsOf(hs)
    ensures forall y, c :: Get(Row(AddHarvests(hy, hs), y), c)
                           == Get(Row(hy, y), c) + CountIf(hs, Carries(y, c))
    ensures RowsPositive(hy) ==> RowsPositive(AddHarvests(hy, hs))
    decreases |hs|
  {
    if hs != [] {
      var h := hs[0];
      AddHarvestStep(hy, h);
      AddHarvestsSpec(AddHarvest(hy, h), hs[1..]);
      assert YearsOf(hs) == {h.year} + YearsOf(hs[1..]) by {
        assert forall x :: x in hs <==> x == h || x in hs[1..];
      }
    }
  }

  lemma {:induction false} AddProducersSpec(hy: map<int, map<string, nat>>, ps: seq<Producer>)
    ensures forall y :: y in AddProducers(hy, ps) <==> y in hy || CountIf(ps, HasYear(y)) > 0
    ensures forall y, c :: Get(Row(AddProducers(hy, ps), y), c)
                           == Get(Row(hy, y), c) + SumNat(ps, RowsCarrying(y, c))
    ensures RowsPositive(hy) ==> RowsPositive(AddProducers(hy, ps))
    decreases |ps|
  {
    if ps != [] {
      var next := AddHarvests(hy, ps[0].harvests);
      AddHarvestsSpec(hy, ps[0].harvests);
      AddProducersSpec(next, ps[1..]);
    }
  }

  /** Totals: the farm count, and each area figure the sum over all farms. */
  lemma DashboardTotals(ps: seq<Producer>)
    ensures var d := GetDashboard(ps);
            && d.totalFarms == |ps|
            && d.totalArea == SumReal(ps, TotalAreaOf)
            && d.soilUse == SoilUse(SumReal(ps, TotalAreaOf), SumReal(ps, ArableAreaOf),
                                    SumReal(ps, VegetationAreaOf))
  {
    FoldSumIsSum(0.0, ps, TotalAreaOf);
    FoldSumIsSum(0.0, ps, ArableAreaOf);
    FoldSumIsSum(0.0, ps, VegetationAreaOf);
  }

  /** `stateCount[s]` is the number of farms in state `s`; only states with
      farms are keys, and the counters add up to the number of farms. */
  lemma StateCountCountsFarms(ps: seq<Producer>)
    ensures var d := GetDashboard(ps);
            forall s :: Get(d.stateCount, s) == CountIf(ps, HasKey(StateOf, s))
                        && (s in d.stateCount <==> CountIf(ps, HasKey(StateOf, s)) > 0)
    ensures Total(GetDashboard(ps).stateCount) == GetDashboard(ps).totalFarms
  {
    BumpEachCounts(map[], ps, StateOf);
    BumpEachTotal(map[], ps, StateOf);
    var m := BumpEach(map[], ps, StateOf);
    var none: map<string, nat> := map[];
    assert Total(none) == 0;
    forall s ensures s in m <==> Get(m, s) > 0 {
    }
  }

  /** `cropCount[c]` is the number of farms reporting `c` in any harvest,
      however many times; so it never exceeds the farm count. */
  lemma CropCountCountsFarms(ps: seq<Producer>)
    ensures var d := GetDashboard(ps);
            forall c :: Get(d.cropCount, c) == CountIf(ps, AmongKeys(CropsOf, c))
                        && (c in d.cropCount <==> CountIf(ps, AmongKeys(CropsOf, c)) > 0)
                        && Get(d.cropCount, c) <= d.totalFarms
  {
    BumpEachSetCounts(map[], ps, CropsOf);
    var m := BumpEachSet(map[], ps, CropsOf);
    forall c ensures c in m <==> Get(m, c) > 0 {
    }
  }

  /** `harvestsByYear` has a key for every year some farm has a harvest row
      of, even a row without crops, and `harvestsByYear[y][c]` is the number
      of harvest rows of year `y` reporting `c`, over all farms. */
  lemma HarvestsByYearCountsRows(ps: seq<Producer>)
    ensures var hy := GetDashboard(ps).harvestsByYear;
            forall y :: y in hy <==> CountIf(ps, HasYear(y)) > 0
    ensures var hy := GetDashboard(ps).harvestsByYear;
            forall y, c :: Get(Row(hy, y), c) == SumNat(ps, RowsCarrying(y, c))
                           && (y in hy ==> (c in hy[y] <==> SumNat(ps, RowsCarrying(y, c)) > 0))
  {
    AddProducersSpec(map[], ps);
    var hy := AddProducers(map[], ps);
    forall y, c | y in hy
      ensures c in hy[y] <==> Get(Row(hy, y), c) > 0
    {
      assert Positive(hy[y]);
    }
  }

  // ---------------------------------------------------------------------
  // harvestsByYear as a farm count.

  /** No two harvest rows of the list share a year, as `create` and `update`
      leave them. */
  predicate OneRowPerYear(hs: seq<Harvest>) {
    forall i, j :: 0 <= i < j < |hs| ==> hs[i].year != hs[j].year
  }

  /** "the producer reports `c` for year `y`". */
  function GrowsIn(y: int, c: string): Producer -> bool {
    (p: Producer) => exists h :: h in p.harvests && h.year == y && c in h.crops
  }

  lemma {:induction false} RowCountOfDistinctYears(hs: seq<Harvest>, y: int, c: string)
    requires OneRowPerYear(hs)
    ensures CountIf(hs, Carries(y, c))
            == if exists h :: h in hs && h.year == y && c in h.crops then 1 else 0
  {
    if hs != [] {
      RowCountOfDistinctYears(hs[1..], y, c);
      assert forall h :: h in hs <==> h == hs[0] || h in hs[1..];
      if hs[0].year == y {
        forall h | h in hs[1..] ensures h.year != y {
          var k :| 0 <= k < |hs[1..]| && hs[1..][k] == h;
          assert hs[k + 1] == h;
        }
      }
    }
  }

  lemma {:induction false} SumOfIndicators(ps: seq<Producer>, y: int, c: string)
    requires forall p :: p in ps ==> OneRowPerYear(p.harvests)
    ensures SumNat(ps, RowsCarrying(y, c)) == CountIf(ps, GrowsIn(y, c))
  {
    if ps != [] {
      RowCountOfDistinctYears(ps[0].harvests, y, c);
      SumOfIndicators(ps[1..], y, c);
    }
  }

  /** When every farm keeps one row per year, `harvestsByYear[y][c]` is the
      number of farms reporting `c` in year `y`, at most the farm count. */
  lemma HarvestsByYearCountsFarms(ps: seq<Producer>, y: int, c: string)
    requires forall p :: p in ps ==> OneRowPerYear(p.harvests)
    ensures var d := GetDashboard(ps);
            && Get(Row(d.harvestsByYear, y), c) == CountIf(ps, GrowsIn(y, c))
            && Get(Row(d.harvestsByYear, y), c) <= d.totalFarms
  {
    HarvestsByYearCountsRows(ps);
    SumOfIndicators(ps, y, c);
  }

  /** Two rows of the same year on one farm count twice: one farm, two 2024
      rows with Soja, and `harvestsByYear[2024]["Soja"]` is 2. */
  lemma RepeatedYearRowsCountTwice(p: Producer)
    requires p.harvests == [Harvest(2024, ["Soja"]), Harvest(2024, ["Soja"])]
    ensures var d := GetDashboard([p]);
            d.totalFarms == 1 && 2024 in d.harvestsByYear
            && Get(d.harvestsByYear[2024], "Soja") == 2
  {
    HarvestsByYearCountsRows([p]);
    assert HasYear(2024)(p);
    assert CountIf(p.harvests, Carries(2024, "Soja")) == 2 by {
      assert p.harvests[1..] == [Harvest(2024, ["Soja"])];
      assert p.harvests[1..][1..] == [];
    }
    assert SumNat([p], RowsCarrying(2024, "Soja")) == 2 by {
      assert [p][1..] == [];
    }
  }

  // ---------------------------------------------------------------------
  // Order of the producers.

  /** The dashboard depends only on which producers there are, not on the
      order the repository returns them in. */
  lemma DashboardOrderIndependent(ps: seq<Producer>, qs: seq<Producer>)
    requires multiset(ps) == multiset(qs)
    ensures GetDashboard(ps) == GetDashboard(qs)
  {
    assert |ps| == |multiset(ps)| == |qs|;
    DashboardTotals(ps);
    DashboardTotals(qs);
    SumRealPermutation(ps, qs, TotalAreaOf);
    SumRealPermutation(ps, qs, ArableAreaOf);
    SumRealPermutation(ps, qs, VegetationAreaOf);
    StateCountOrderIndependent(ps, qs);
    CropCountOrderIndependent(ps, qs);
    HarvestsByYearOrderIndependent(ps, qs);
  }

  lemma StateCountOrderIndependent(ps: seq<Producer>, qs: seq<Producer>)
    requires multiset(ps) == multiset(qs)
    ensures GetDashboard(ps).stateCount == GetDashboard(qs).stateCount
  {
    var a := GetDashboard(ps);
    var b := GetDashboard(qs);
    StateCountCountsFarms(ps);
    StateCountCountsFarms(qs);
    BumpEachCounts(map[], ps, StateOf);
    BumpEachCounts(map[], qs, StateOf);
    forall s ensures Get(a.stateCount, s) == Get(b.stateCount, s) {
      CountIfPermutation(ps, qs, HasKey(StateOf, s));
    }
    PositiveMapsEqual(a.stateCount, b.stateCount);
  }

  lemma CropCountOrderIndependent(ps: seq<Producer>, qs: seq<Producer>)
    requires multiset(ps) == multiset(qs)
    ensures GetDashboard(ps).cropCount == GetDashboard(qs).cropCount
  {
    var a := GetDashboard(ps);
    var b := GetDashboard(qs);
    CropCountCountsFarms(ps);
    CropCountCountsFarms(qs);
    BumpEachSetCounts(map[], ps, CropsOf);
    BumpEachSetCounts(map[], qs, CropsOf);
    forall c ensures Get(a.cropCount, c) == Get(b.cropCount, c) {
      CountIfPermutation(ps, qs, AmongKeys(CropsOf, c));
    }
    PositiveMapsEqual(a.cropCount, b.cropCount);
  }

  lemma HarvestsByYearOrderIndependent(ps: seq<Producer>, qs: seq<Producer>)
    requires multiset(ps) == multiset(qs)
    ensures GetDashboard(ps).harvestsByYear == GetDashboard(qs).harvestsByYear
  {
    var a := GetDashboard(ps);
    var b := GetDashboard(qs);
    HarvestsByYearCountsRows(ps);
    HarvestsByYearCountsRows(qs);
    AddProducersSpec(map[], ps);
    AddProducersSpec(map[], qs);
    var ha := a.harvestsByYear;
    var hb := b.harvestsByYear;
    forall y ensures y in ha <==> y in hb {
      CountIfPermutation(ps, qs, HasYear(y));
    }
    forall y | y in ha
      ensures ha[y] == hb[y]
    {
      forall c ensures Get(ha[y], c) == Get(hb[y], c) {
        SumNatPermutation(ps, qs, RowsCarrying(y, c));
        assert Get(Row(ha, y), c) == Get(Row(hb, y), c);
      }
      PositiveMapsEqual(ha[y], hb[y]);
    }
    assert ha == hb;
  }

  // ---------------------------------------------------------------------
  // The repository's test fixture.

  predicate IsFixture(p: Producer) {
    && p.state == "SP" && p.totalArea == 1000.0 && p.arableArea == 800.0
    && p.vegetationArea == 200.0
    && p.harvests == [Harvest(2024, ["Soja", "Milho"])]
  }

  lemma FixtureStates(p: Producer)
    requires IsFixture(p)
    ensures GetDashboard([p]).stateCount == map["SP" := 1]
  {
    var d := GetDashboard([p]);
    assert [p][1..] == [];
    StateCountCountsFarms([p]);
    BumpEachCounts(map[], [p], StateOf);
    forall s ensures Get(d.stateCount, s) == Get(map["SP" := 1], s) {
      assert CountIf([p], HasKey(StateOf, s)) == if s == "SP" then 1 else 0;
    }
    PositiveMapsEqual(d.stateCount, map["SP" := 1]);
  }

  lemma FixtureCrops(p: Producer)
    requires IsFixture(p)
    ensures GetDashboard([p]).cropCount == map["Soja" := 1, "Milho" := 1]
  {
    var none: map<string, nat> := map[];
    var crops := map["Soja" := 1, "Milho" := 1];
    FixtureCropsOf(p);
    calc {
      GetDashboard([p]).cropCount;
      BumpEachSet(none, [p], CropsOf);
      { assert [p][1..] == []; }
      BumpAll(none, {"Soja", "Milho"});
    }
    var r := BumpAll(none, {"Soja", "Milho"});
    assert r.Keys == crops.Keys;
    assert forall k :: k in r ==> r[k] == Get(r, k) == 1 == crops[k];
  }

  /** The fixture's producer lists exactly Soja and Milho. */
  lemma FixtureCropsOf(p: Producer)
    requires IsFixture(p)
    ensures CropsOf(p) == {"Soja", "Milho"}
  {
    var h := p.harvests[0];
    assert forall x :: x in p.harvests <==> x == h;
    assert "Soja" in h.crops && "Milho" in h.crops;
    assert forall x :: x in h.crops ==> x == "Soja" || x == "Milho";
  }

  lemma FixtureYears(p: Producer)
    requires IsFixture(p)
    ensures GetDashboard([p]).harvestsByYear == map[2024 := map["Soja" := 1, "Milho" := 1]]
  {
    var h := p.harvests[0];
    var empty: map<int, map<string, nat>> := map[];
    var none: map<string, nat> := map[];
    var crops := map["Soja" := 1, "Milho" := 1];
    calc {
      GetDashboard([p]).harvestsByYear;
      AddProducers(empty, [p]);
      { assert [p][1..] == []; }
      AddHarvests(empty, p.harvests);
      { assert p.harvests[1..] == []; }
      AddHarvest(empty, h);
      empty[2024 := BumpAll(none, CropSet(h))];
      { assert CropSet(h) == {"Soja", "Milho"};
        assert BumpAll(none, {"Soja", "Milho"}) == crops; }
      map[2024 := crops];
    }
  }

  /** One producer in SP with 1000 ha (800 arable, 200 vegetation) and a 2024
      harvest of Soja and Milho: one farm, 1000 ha, `{SP: 1}`, each crop on
      one farm, and the 2024 row counting each crop once. */
  lemma SingleProducerDashboard(p: Producer)
    requires IsFixture(p)
    ensures var d := GetDashboard([p]);
            && d.totalFarms == 1 && d.totalArea == 1000.0
            && d.stateCount == map["SP" := 1]
            && d.cropCount == map["Soja" := 1, "Milho" := 1]
            && d.harvestsByYear == map[2024 := map["Soja" := 1, "Milho" := 1]]
            && d.soilUse == SoilUse(1000.0, 800.0, 200.0)
  {
    assert [p][1..] == [];
    DashboardTotals([p]);
    FixtureStates(p);
    FixtureCrops(p);
    FixtureYears(p);
  }
}

=== FILE: nest_entities.dfy ===
/** The records of the Nest backend: a producer with its harvests, each
    harvest a year and the names of its crops, and the two request bodies
    (create and partial update). Database ids of harvest and crop rows play no
    part in the logic and are not represented. */
module NestEntities {
  import opened Wrappers

  /** A harvest: one year and the crop names reported for it, in order. The
      same shape serves the stored `Harvest` entity (its `HarvestCrop` rows
      reduced to their `cropName`) and the `CreateHarvestDto` of a request. */
  datatype Harvest = Harvest(year: int, crops: seq<string>)

  /** A stored producer with its harvests. Areas are hectares. */
  datatype Producer = Producer(
    id: int,
    name: string,
    document: string,
    farmName: string,
    city: string,
    state: string,
    totalArea: real,
    arableArea: real,
    vegetationArea: real,
    harvests: seq<Harvest>)

  /** `CreateProducerDto`: every scalar field, harvests optional. */
  datatype CreateProducerDto = CreateProducerDto(
    name: string,
    document: string,
    farmName: string,
    city: string,
    state: string,
    totalArea: real,
    arableArea: real,
    vegetationArea: real,
    harvests: Option<seq<Harvest>>)

  /** `UpdateProducerDto`: any subset of the create fields. */
  datatype UpdateProducerDto = UpdateProducerDto(
    name: Option<string>,
    document: Option<string>,
    farmName: Option<string>,
    city: Option<string>,
    state: Option<string>,
    totalArea: Option<real>,
    arableArea: Option<real>,
    vegetationArea: Option<real>,
    harvests: Option<seq<Harvest>>)

  /** The stored producers by id. */
  type Store = map<int, Producer>

  datatype Error = NotFound(id: int)

  /** A service call's effect on the store and its outcome. */
  datatype Response<T> = Response(store: Store, outcome: Result<T, Error>)
}

=== FILE: nest_service.dfy ===
/** `create`, `update` and `remove` of the Nest `ProducersService`, as
    functions from the stored producers to the new stored producers and the
    call's outcome. The service performs no document or area validation. */
module NestService {
  import opened Wrappers
  import opened NestEntities
  import opened HarvestGrouping

  // ---------------------------------------------------------------------
  // create

  /** The harvests `create` attaches: none when the request has no harvest
      list, otherwise one harvest per year of the grouping. */
  function CreateHarvests(reports: Option<seq<Harvest>>): (hs: seq<Harvest>)
    ensures reports.None? ==> hs == []
    ensures reports.Some? ==> |hs| == |YearsOf(reports.value)|
  {
    match reports
    case None => []
    case Some(hs) => Materialise(GroupHarvestsByYear(hs))
  }

  /** `create`: the request's fields with the materialised harvests, saved
      under the id the store assigns. It never fails. */
  function Create(store: Store, dto: CreateProducerDto, newId: int): (r: Response<Producer>)
    requires newId !in store
    ensures r.outcome.Success?
    ensures r.store.Keys == store.Keys + {newId}
    ensures r.store[newId] == r.outcome.value && r.outcome.value.id == newId
    ensures forall k :: k in store ==> r.store[k] == store[k]
    ensures var p := r.outcome.value;
            && p.name == dto.name && p.document == dto.document
            && p.farmName == dto.farmName && p.city == dto.city && p.state == dto.state
            && p.totalArea == dto.totalArea && p.arableArea == dto.arableArea
            && p.vegetationArea == dto.vegetationArea
    ensures r.outcome.value.harvests == CreateHarvests(dto.harvests)
  {
    var p := Producer(newId, dto.name, dto.document, dto.farmName, dto.city, dto.state,
                      dto.totalArea, dto.arableArea, dto.vegetationArea,
                      CreateHarvests(dto.harvests));
    Response(store[newId := p], Success(p))
  }

  /** The harvests of a created producer: none without a list; otherwise one
      per distinct reported year, ascending, each with that year's names once
      each in first-appearance order. */
  lemma CreateHarvestsOnePerYear(reports: Option<seq<Harvest>>)
    ensures reports.None? ==> CreateHarvests(reports) == []
    ensures reports.Some? ==>
              var hs := CreateHarvests(reports);
              && (forall i, j :: 0 <= i < j < |hs| ==> hs[i].year < hs[j].year)
              && YearsOf(hs) == YearsOf(reports.value)
              && (forall i :: 0 <= i < |hs| ==>
                    hs[i].crops == Dedup(YearCrops(reports.value, hs[i].year)))
  {
    if reports.Some? {
      var g := GroupHarvestsByYear(reports.value);
      var hs := Materialise(g);
      MaterialiseYears(g);
      forall i | 0 <= i < |hs|
        ensures hs[i].crops == Dedup(YearCrops(reports.value, hs[i].year))
      {
        var y := hs[i].year;
        assert y in YearsOf(hs);
        YearCropsSingle(hs, i);
        MaterialiseYearCrops(g, y);
        DedupOfDistinct(g[y]);
      }
    }
  }

  // ---------------------------------------------------------------------
  // update

  /** The patch that sends no field. */
  const NoChange := UpdateProducerDto(None, None, None, None, None, None, None, None, None)

  /** `Object.assign(producer, dto)`: every field present in the patch,
      `harvests` included, replaces the loaded one. */
  function Assign(p: Producer, patch: UpdateProducerDto): (r: Producer)
    ensures r.id == p.id
    ensures patch == NoChange ==> r == p
    ensures patch.harvests.Some? ==> r.harvests == patch.harvests.value
  {
    Producer(
      p.id,
      patch.name.GetOr(p.name),
      patch.document.GetOr(p.document),
      patch.farmName.GetOr(p.farmName),
      patch.city.GetOr(p.city),
      patch.state.GetOr(p.state),
      patch.totalArea.GetOr(p.totalArea),
      patch.arableArea.GetOr(p.arableArea),
      patch.vegetationArea.GetOr(p.vegetationArea),
      patch.harvests.GetOr(p.harvests))
  }

  /** `Array.find`: the first harvest of year `y`. */
  function FindYear(hs: seq<Harvest>, y: int): (r: Option<Harvest>)
    ensures r.Some? ==> r.value in hs && r.value.year == y
    ensures r.Some? ==> exists i :: 0 <= i < |hs| && hs[i] == r.value && NoYearBefore(hs, y, i)
    ensures r.None? <==> y !in YearsOf(hs)
  {
    if hs == [] then None
    else if hs[0].year == y then Some(hs[0])
    else
      assert forall h :: h in hs <==> h == hs[0] || h in hs[1..];
      var r := FindYear(hs[1..], y);
      if r.Some? then
        var i :| 0 <= i < |hs[1..]| && hs[1..][i] == r.value && NoYearBefore(hs[1..], y, i);
        assert hs[i + 1] == r.value && NoYearBefore(hs, y, i + 1);
        r
      else r
  }

  /** No harvest before position `i` is of year `y`. */
  predicate NoYearBefore(hs: seq<Harvest>, y: int, i: nat)
    requires i <= |hs|
  {
    forall j :: 0 <= j < i ==> hs[j].year != y
  }

  /** One year of the rebuild: the harvest found for the year gets the
      distinct names of its own crops followed by the grouped ones; a year
      not found gets a new harvest. */
  function RebuildYear(current: seq<Harvest>, y: int, crops: seq<string>): (h: Harvest)
    ensures h.year == y && NoDup(h.crops)
    ensures forall c :: c in h.crops <==>
              c in crops || (FindYear(current, y).Some? && c in FindYear(current, y).value.crops)
  {
    match FindYear(current, y)
    case Some(existing) => existing.(crops := Dedup(existing.crops + crops))
    case None => Harvest(y, Dedup(crops))
  }

  /** The `Object.entries(harvestsByYear).map(...)` of `update`, looking
      years up in `current`. */
  function RebuildHarvests(current: seq<Harvest>, g: map<int, seq<string>>): (hs: seq<Harvest>)
    ensures |hs| == |g|
    ensures forall i, j :: 0 <= i < j < |hs| ==> hs[i].year < hs[j].year
    ensures forall y :: y in YearsOf(hs) <==> y in g
  {
    var ys := SortedKeys(g.Keys);
    var hs := seq(|ys|, i requires 0 <= i < |ys| => RebuildYear(current, ys[i], g[ys[i]]));
    assert forall i :: 0 <= i < |hs| ==> hs[i].year == ys[i];
    YearsOfIndexed(hs, ys);
    hs
  }

  /** `update`: a missing id fails with NotFound and stores nothing; otherwise
      the patched producer replaces the stored one and nothing else changes.
      Without a harvest list in the patch, exactly the patched scalar fields
      change and the loaded harvests stay. */
  function Update(store: Store, id: int, patch: UpdateProducerDto): (r: Response<Producer>)
    ensures id !in store ==> r.outcome == Failure(NotFound(id)) && r.store == store
    ensures id in store ==>
              && r.outcome.Success?
              && r.store == store[id := r.outcome.value]
              && r.outcome.value.id == store[id].id
    ensures id in store ==>
              var was := store[id];
              var p := r.outcome.value;
              && p.name == patch.name.GetOr(was.name)
              && p.document == patch.document.GetOr(was.document)
              && p.farmName == patch.farmName.GetOr(was.farmName)
              && p.city == patch.city.GetOr(was.city)
              && p.state == patch.state.GetOr(was.state)
              && p.totalArea == patch.totalArea.GetOr(was.totalArea)
              && p.arableArea == patch.arableArea.GetOr(was.arableArea)
              && p.vegetationArea == patch.vegetationArea.GetOr(was.vegetationArea)
              && (patch.harvests.None? ==> p.harvests == was.harvests)
  {
    if id !in store then Response(store, Failure(NotFound(id)))
    else
      var patched := Assign(store[id], patch);
      var updated :=
        if patch.harvests.None? then patched
        else patched.(harvests := RebuildHarvests(patched.harvests,
                                                   GroupHarvestsByYear(patch.harvests.value)));
      Response(store[id := updated], Success(updated))
  }

  /** The first harvest of a year contributes the first names of that year. */
  lemma {:induction false} FindYearLeads(hs: seq<Harvest>, y: int)
    requires y in YearsOf(hs)
    ensures var e := FindYear(hs, y).value;
            |e.crops| <= |YearCrops(hs, y)| && YearCrops(hs, y)[..|e.crops|] == e.crops
  {
    if hs[0].year != y {
      assert y in YearsOf(hs[1..]) by {
        var h :| h in hs && h.year == y;
        assert h != hs[0];
      }
      FindYearLeads(hs[1..], y);
      assert YearCrops(hs, y) == YearCrops(hs[1..], y) by {
        assert YearCrops(hs, y) == [] + YearCrops(hs[1..], y);
      }
    } else {
      assert YearCrops(hs, y) == hs[0].crops + YearCrops(hs[1..], y);
    }
  }

  /** Rebuilding a year from the very list that was grouped yields the
      grouped names: the found harvest's own names come first in its year. */
  lemma RebuildYearFromItself(hs: seq<Harvest>, y: int)
    requires y in YearsOf(hs)
    ensures var g := GroupHarvestsByYear(hs);
            RebuildYear(hs, y, g[y]) == Harvest(y, Dedup(g[y]))
  {
    var g := GroupHarvestsByYear(hs);
    var e := FindYear(hs, y).value;
    FindYearLeads(hs, y);
    var all := YearCrops(hs, y);
    var rest := all[|e.crops|..];
    assert all == e.crops + rest;
    var first := AppendNew([], e.crops);
    AppendNewProps([], e.crops);
    calc {
      Dedup(e.crops + g[y]);
      { AppendNewConcat([], e.crops, g[y]); }
      AppendNew(first, g[y]);
      { AppendNewConcat([], e.crops, rest); }
      AppendNew(first, AppendNew(first, rest));
      { AppendNewAbsorbs(first, rest); }
      AppendNew(first, rest);
      { AppendNewConcat([], e.crops, rest); }
      g[y];
    }
    DedupOfDistinct(g[y]);
  }

  /** What `update` does with a harvest list: `Object.assign` has already put
      the patch's list on the producer, so the year lookup finds the patch's
      own harvests and the result is exactly the grouping of the patch,
      materialised as `create` does it. Stored harvests play no part. */
  lemma UpdateHarvestsAreThePatch(store: Store, id: int, patch: UpdateProducerDto)
    requires id in store && patch.harvests.Some?
    ensures Update(store, id, patch).outcome.value.harvests
            == Materialise(GroupHarvestsByYear(patch.harvests.value))
  {
    var hs := patch.harvests.value;
    var g := GroupHarvestsByYear(hs);
    var ys := SortedKeys(g.Keys);
    var rebuilt := RebuildHarvests(hs, g);
    var made := Materialise(g);
    forall i | 0 <= i < |ys|
      ensures rebuilt[i] == made[i]
    {
      RebuildYearFromItself(hs, ys[i]);
    }
  }

  /** Consequence: a stored year the patch does not mention is gone after the
      update, and every year left is one the patch mentions. */
  lemma UpdateDropsUnsentYears(store: Store, id: int, patch: UpdateProducerDto)
    requires id in store && patch.harvests.Some?
    ensures YearsOf(Update(store, id, patch).outcome.value.harvests)
            == YearsOf(patch.harvests.value)
  {
    UpdateHarvestsAreThePatch(store, id, patch);
    MaterialiseYears(GroupHarvestsByYear(patch.harvests.value));
  }

  /** A stored producer with Soja in 2024, patched with Milho for 2024, ends
      with Milho alone: the stored crop is not merged in. */
  lemma UpdateDoesNotMergeExample()
    ensures var stored := Producer(1, "n", "d", "f", "c", "SP", 10.0, 5.0, 5.0,
                                   [Harvest(2024, ["Soja"]), Harvest(2023, ["Trigo"])]);
            var patch := UpdateProducerDto(None, None, None, None, None, None, None, None,
                                           Some([Harvest(2024, ["Milho"])]));
            Update(map[1 := stored], 1, patch).outcome.value.harvests == [Harvest(2024, ["Milho"])]
  {
    var reports := [Harvest(2024, ["Milho"])];
    var stored := Producer(1, "n", "d", "f", "c", "SP", 10.0, 5.0, 5.0,
                           [Harvest(2024, ["Soja"]), Harvest(2023, ["Trigo"])]);
    var patch := UpdateProducerDto(None, None, None, None, None, None, None, None, Some(reports));
    UpdateHarvestsAreThePatch(map[1 := stored], 1, patch);
    MilhoGrouping(reports);
    MilhoMaterialised(map[2024 := ["Milho"]]);
  }

  /** The grouping of the single report of Milho in 2024. */
  lemma MilhoGrouping(reports: seq<Harvest>)
    requires reports == [Harvest(2024, ["Milho"])]
    ensures GroupHarvestsByYear(reports) == map[2024 := ["Milho"]]
  {
    assert YearsOf(reports) == {2024};
    assert YearCrops(reports, 2024) == ["Milho"] by {
      assert reports[1..] == [];
    }
    DedupOfDistinct(["Milho"]);
  }

  /** That grouping materialised: one harvest of 2024 with Milho. */
  lemma MilhoMaterialised(g: map<int, seq<string>>)
    requires g == map[2024 := ["Milho"]]
    ensures Materialise(g) == [Harvest(2024, ["Milho"])]
  {
    assert g.Keys == {2024};
    var ys := SortedKeys(g.Keys);
    assert 2024 in ys && |ys| == 1;
    assert ys == [2024];
    DedupOfDistinct(["Milho"]);
  }

  // ---------------------------------------------------------------------
  // remove

  /** `remove`: a missing id fails with NotFound and removes nothing;
      otherwise exactly that producer (with its harvests) is removed. */
  function Remove(store: Store, id: int): (r: Response<()>)
    ensures id !in store ==> r.outcome == Failure(NotFound(id)) && r.store == store
    ensures id in store ==> r.outcome.Success? && r.store.Keys == store.Keys - {id}
    ensures forall k :: k in r.store ==> k in store && r.store[k] == store[k]
  {
    if id !in store then Response(store, Failure(NotFound(id)))
    else Response(store - {id}, Success(()))
  }
}

=== FILE: producer_slice.dfy ===
/** The frontend's producer store: the list last fetched, a loading flag and
    an error message, and the reducer that moves them on the async actions of
    fetching the list and deleting a producer. */
module ProducerSlice {
  import opened Wrappers
  import opened Tally
  import opened DocumentValidator

  /** A producer as the frontend holds it; `id` may be absent. */
  datatype ProducerRow = ProducerRow(
    id: Option<int>,
    document: string,
    name: string,
    farmName: string,
    city: string,
    state: string,
    totalArea: real,
    arableArea: real,
    vegetationArea: real,
    crops: seq<string>)

  datatype State = State(producers: seq<ProducerRow>, loading: bool, error: Option<string>)

  /** `initialState`. */
  const Initial := State([], false, None)

  const DefaultFetchError := "Erro ao carregar produtores"

  /** The actions the reducer handles; `Other` stands for every other
      action, which leaves the state as it is. `FetchRejected` carries
      `action.error.message`, which may be missing. */
  datatype Action =
    | FetchPending
    | FetchFulfilled(payload: seq<ProducerRow>)
    | FetchRejected(message: Option<string>)
    | DeleteFulfilled(idText: string)
    | Other

  // ---------------------------------------------------------------------
  // Number(payload)

  /** The value of a text of decimal digits, read left to right; the empty
      text reads as 0, as `Number("")` does. */
  function DecimalValue(s: string): nat
    requires AllDigits(s)
  {
    if s == [] then 0 else DecimalValue(s[..|s| - 1]) * 10 + DigitValue(s[|s| - 1])
  }

  /** `Number(payload)` for the id texts the frontend sends: a text of
      decimal digits has its value; any other text is taken as NaN (None),
      which equals no id. */
  function JsNumber(s: string): (n: Option<int>)
    ensures n.Some? <==> AllDigits(s)
    ensures n.Some? ==> n.value >= 0
  {
    if AllDigits(s) then Some(DecimalValue(s)) else None
  }

  /** `String(n)` for a non-negative integer: its decimal digits, no
      leading zero. */
  function DecimalText(n: nat): (s: string)
    ensures AllDigits(s) && |s| >= 1
    ensures |s| > 1 ==> s[0] != '0'
  {
    if n < 10 then [DigitChar(n)] else DecimalText(n / 10) + [DigitChar(n % 10)]
  }

  /** Reading back what `String` wrote gives the number: `Number(String(n)) == n`. */
  lemma {:induction false} DecimalRoundTrip(n: nat)
    ensures JsNumber(DecimalText(n)) == Some(n)
  {
    var s := DecimalText(n);
    if n < 10 {
      assert s[..|s| - 1] == [];
      assert DecimalValue(s) == DigitValue(s[0]) == n;
    } else {
      DecimalRoundTrip(n / 10);
      assert s[..|s| - 1] == DecimalText(n / 10);
      assert DigitValue(s[|s| - 1]) == n % 10;
    }
  }

  // ---------------------------------------------------------------------
  // The reducer

  /** `producer.id !== Number(payload)`: a row without id, or any row when
      the payload is not a number, is kept. */
  function Keeps(payload: string): ProducerRow -> bool {
    (p: ProducerRow) => !(p.id.Some? && JsNumber(payload) == Some(p.id.value))
  }

  /** `Array.prototype.filter`. */
  function Filter(s: seq<ProducerRow>, keep: ProducerRow -> bool): (r: seq<ProducerRow>)
    ensures |r| <= |s|
    ensures forall x :: x in r <==> x in s && keep(x)
  {
    if s == [] then []
    else (if keep(s[0]) then [s[0]] else []) + Filter(s[1..], keep)
  }

  /** The slice's reducer. */
  function Reduce(s: State, a: Action): (t: State)
    ensures a.FetchPending? ==> t.loading && t.error.None? && t.producers == s.producers
    ensures a.FetchFulfilled? ==> !t.loading && t.producers == a.payload && t.error == s.error
    ensures a.FetchRejected? ==>
              && !t.loading && t.producers == s.producers
              && t.error.Some? && t.error.value != ""
              && (a.message.Some? && a.message.value != "" ==> t.error == a.message)
    ensures a.DeleteFulfilled? ==>
              && t.loading == s.loading && t.error == s.error
              && (forall p :: p in t.producers <==> p in s.producers && Keeps(a.idText)(p))
    ensures a.Other? ==> t == s
  {
    match a
    case FetchPending => s.(loading := true, error := None)
    case FetchFulfilled(payload) => s.(loading := false, producers := payload)
    case FetchRejected(message) =>
      var text := if message.Some? && message.value != "" then message.value else DefaultFetchError;
      s.(loading := false, error := Some(text))
    case DeleteFulfilled(payload) => s.(producers := Filter(s.producers, Keeps(payload)))
    case Other => s
  }

  // ---------------------------------------------------------------------
  // Properties of the reducer

  /** `s` is `t` with some elements left out, order kept. */
  predicate IsSubsequence(s: seq<ProducerRow>, t: seq<ProducerRow>)
    decreases |t|
  {
    if s == [] then true
    else if t == [] then false
    else if s[0] == t[0] then IsSubsequence(s[1..], t[1..])
    else IsSubsequence(s, t[1..])
  }

  lemma {:induction false} FilterIsSubsequence(s: seq<ProducerRow>, keep: ProducerRow -> bool)
    ensures IsSubsequence(Filter(s, keep), s)
  {
    if s != [] {
      FilterIsSubsequence(s[1..], keep);
      var r := Filter(s, keep);
      if keep(s[0]) {
        assert r[1..] == Filter(s[1..], keep);
      } else {
        assert r == Filter(s[1..], keep);
        assert r != [] ==> r[0] in r && r[0] != s[0];
      }
    }
  }

  lemma {:induction false} FilterCount(s: seq<ProducerRow>, keep: ProducerRow -> bool)
    ensures |Filter(s, keep)| == CountIf(s, keep)
  {
    if s != [] {
      FilterCount(s[1..], keep);
    }
  }

  lemma {:induction false} FilterIdempotent(s: seq<ProducerRow>, keep: ProducerRow -> bool)
    ensures Filter(Filter(s, keep), keep) == Filter(s, keep)
  {
    if s != [] {
      FilterIdempotent(s[1..], keep);
      if keep(s[0]) {
        var r := Filter(s, keep);
        assert r == [s[0]] + Filter(s[1..], keep);
        assert r[0] == s[0] && r[1..] == Filter(s[1..], keep);
        calc {
          Filter(r, keep);
          [r[0]] + Filter(r[1..], keep);
          [s[0]] + Filter(Filter(s[1..], keep), keep);
          [s[0]] + Filter(s[1..], keep);
        }
      } else {
        assert Filter(s, keep) == Filter(s[1..], keep);
      }
    }
  }

  /** A delete keeps the remaining rows in their order, drops as many rows
      as carry the id, and a second delete of the same id changes nothing. */
  lemma DeleteKeepsOrderAndCount(s: State, payload: string)
    ensures var t := Reduce(s, DeleteFulfilled(payload));
            && IsSubsequence(t.producers, s.producers)
            && |t.producers| == CountIf(s.producers, Keeps(payload))
            && Reduce(t, DeleteFulfilled(payload)) == t
  {
    FilterIsSubsequence(s.producers, Keeps(payload));
    FilterCount(s.producers, Keeps(payload));
    FilterIdempotent(s.producers, Keeps(payload));
  }

  /** Deleting with the id's text, as the list screen does, removes exactly
      the rows carrying that id and no other. */
  lemma DeleteByIdRemovesThatId(s: State, id: nat)
    ensures var t := Reduce(s, DeleteFulfilled(DecimalText(id)));
            forall p :: p in t.producers <==> p in s.producers && p.id != Some(id)
  {
    DecimalRoundTrip(id);
  }

  /** A payload that is not a number removes nothing. */
  lemma DeleteWithNonNumberKeepsAll(s: State, payload: string)
    requires !AllDigits(payload)
    ensures Reduce(s, DeleteFulfilled(payload)) == s
  {
    FilterAll(s.producers, Keeps(payload));
  }

  lemma {:induction false} FilterAll(s: seq<ProducerRow>, keep: ProducerRow -> bool)
    requires forall x :: x in s ==> keep(x)
    ensures Filter(s, keep) == s
  {
    if s != [] {
      FilterAll(s[1..], keep);
    }
  }

  /** The store starts with no producers, not loading and without error; a
      delete on it changes nothing. */
  lemma InitialState(payload: string)
    ensures Initial.producers == [] && !Initial.loading && Initial.error.None?
    ensures Reduce(Initial, DeleteFulfilled(payload)) == Initial
  {
  }

  /** A rejection without a message, or with an empty one, shows the
      default text. */
  lemma RejectedWithoutMessage(s: State)
    ensures Reduce(s, FetchRejected(None)).error == Some("Erro ao carregar produtores")
    ensures Reduce(s, FetchRejected(Some(""))).error == Some("Erro ao carregar produtores")
  {
  }

  /** A successful fetch cycle leaves exactly the fetched list, not loading,
      with no error, whatever the state before. */
  lemma FetchCycleSucceeds(s: State, payload: seq<ProducerRow>)
    ensures Reduce(Reduce(s, FetchPending), FetchFulfilled(payload)) == State(payload, false, None)
  {
  }

  /** A failed fetch cycle keeps the previous list and reports the message,
      or the default text when the message is missing or empty. */
  lemma FetchCycleFails(s: State, message: Option<string>)
    ensures var t := Reduce(Reduce(s, FetchPending), FetchRejected(message));
            && t.producers == s.producers && !t.loading
            && t.error == Some(if message.Some? && message.value != "" then message.value
                               else DefaultFetchError)
  {
  }
}

=== FILE: tally.dfy ===
/** Counting and summing, shared by the two dashboards: the JavaScript idiom
    `acc[k] = (acc[k] || 0) + 1` on a record of counters, reference counts and
    sums over a sequence, and the facts that make their results independent of
    the order of the sequence. */
module Tally {

  /** The counter of `k`, zero when the record has no entry for it (`acc[k] || 0`). */
  function Get<K>(m: map<K, nat>, k: K): nat {
    if k in m then m[k] else 0
  }

  /** `acc[k] = (acc[k] || 0) + 1`. */
  function Bump<K(!new)>(m: map<K, nat>, k: K): (r: map<K, nat>)
    ensures r.Keys == m.Keys + {k}
    ensures Get(r, k) == Get(m, k) + 1
    ensures forall j :: j != k ==> Get(r, j) == Get(m, j)
  {
    m[k := Get(m, k) + 1]
  }

  /** One `Bump` for every member of a set, as `set.forEach(k => ...)` does. */
  function BumpAll<K(!new)>(m: map<K, nat>, ks: set<K>): (r: map<K, nat>)
    ensures r.Keys == m.Keys + ks
    ensures forall j :: Get(r, j) == Get(m, j) + (if j in ks then 1 else 0)
  {
    map j | j in m.Keys + ks :: Get(m, j) + (if j in ks then 1 else 0)
  }

  /** The sum of all counters of a record. */
  ghost function Total<K>(m: map<K, nat>): nat
    decreases |m|
  {
    if m == map[] then 0
    else
      var k :| k in m;
      m[k] + Total(m - {k})
  }

  /** Any entry can be taken out first. */
  lemma TotalRemove<K>(m: map<K, nat>, k: K)
    requires k in m
    ensures Total(m) == m[k] + Total(m - {k})
    decreases |m|
  {
    var j :| j in m && Total(m) == m[j] + Total(m - {j});
    if j != k {
      var mj := m - {j};
      var mk := m - {k};
      TotalRemove(mj, k);
      TotalRemove(mk, j);
      assert mj - {k} == mk - {j};
    }
  }

  /** Each `Bump` adds exactly one to the sum of the counters. */
  lemma TotalBump<K(!new)>(m: map<K, nat>, k: K)
    ensures Total(Bump(m, k)) == Total(m) + 1
  {
    var r := Bump(m, k);
    TotalRemove(r, k);
    if k in m {
      TotalRemove(m, k);
      assert r - {k} == m - {k};
    } else {
      assert r - {k} == m;
    }
  }

  // ---------------------------------------------------------------------
  // Reference counts and sums over sequences.

  /** The number of elements of `s` satisfying `p`. */
  function CountIf<T>(s: seq<T>, p: T -> bool): (n: nat)
    ensures n <= |s|
  {
    if s == [] then 0
    else (if p(s[0]) then 1 else 0) + CountIf(s[1..], p)
  }

  /** The sum of `f` over the elements of `s`. */
  function SumNat<T>(s: seq<T>, f: T -> nat): nat {
    if s == [] then 0 else f(s[0]) + SumNat(s[1..], f)
  }

  /** The sum of `f` over the elements of `s`. */
  function SumReal<T>(s: seq<T>, f: T -> real): real {
    if s == [] then 0.0 else f(s[0]) + SumReal(s[1..], f)
  }

  lemma {:induction false} CountIfConcat<T>(a: seq<T>, b: seq<T>, p: T -> bool)
    ensures CountIf(a + b, p) == CountIf(a, p) + CountIf(b, p)
  {
    if a == [] {
      assert a + b == b;
    } else {
      assert (a + b)[1..] == a[1..] + b;
      CountIfConcat(a[1..], b, p);
    }
  }

  lemma {:induction false} SumNatConcat<T>(a: seq<T>, b: seq<T>, f: T -> nat)
    ensures SumNat(a + b, f) == SumNat(a, f) + SumNat(b, f)
  {
    if a == [] {
      assert a + b == b;
    } else {
      assert (a + b)[1..] == a[1..] + b;
      SumNatConcat(a[1..], b, f);
    }
  }

  lemma {:induction false} SumRealConcat<T>(a: seq<T>, b: seq<T>, f: T -> real)
    ensures SumReal(a + b, f) == SumReal(a, f) + SumReal(b, f)
  {
    if a == [] {
      assert a + b == b;
    } else {
      assert (a + b)[1..] == a[1..] + b;
      SumRealConcat(a[1..], b, f);
    }
  }

  /** Taking one element out of a permutation of `s[0] :: rest` leaves a
      permutation of `rest`; returns where it was. */
  lemma FindInPermutation<T>(s: seq<T>, t: seq<T>) returns (j: nat)
    requires s != [] && multiset(s) == multiset(t)
    ensures j < |t| && t[j] == s[0]
    ensures multiset(s[1..]) == multiset(t[..j] + t[j + 1..])
  {
    assert s == [s[0]] + s[1..];
    assert s[0] in multiset(t);
    j :| 0 <= j < |t| && t[j] == s[0];
    assert t == t[..j] + [t[j]] + t[j + 1..];
    calc {
      multiset(s[1..]);
      multiset(s) - multiset{s[0]};
      multiset(t) - multiset{s[0]};
      multiset(t[..j] + t[j + 1..]);
    }
  }

  /** Counting does not depend on the order of the sequence. */
  lemma {:induction false} CountIfPermutation<T>(s: seq<T>, t: seq<T>, p: T -> bool)
    requires multiset(s) == multiset(t)
    ensures CountIf(s, p) == CountIf(t, p)
    decreases |s|
  {
    if s == [] {
      assert t == [];
    } else {
      var j := FindInPermutation(s, t);
      var rest := t[..j] + t[j + 1..];
      CountIfPermutation(s[1..], rest, p);
      assert t == t[..j] + ([t[j]] + t[j + 1..]);
      CountIfConcat(t[..j], [t[j]] + t[j + 1..], p);
      CountIfConcat([t[j]], t[j + 1..], p);
      CountIfConcat(t[..j], t[j + 1..], p);
    }
  }

  /** Summing does not depend on the order of the sequence. */
  lemma {:induction false} SumNatPermutation<T>(s: seq<T>, t: seq<T>, f: T -> nat)
    requires multiset(s) == multiset(t)
    ensures SumNat(s, f) == SumNat(t, f)
    decreases |s|
  {
    if s == [] {
      assert t == [];
    } else {
      var j := FindInPermutation(s, t);
      var rest := t[..j] + t[j + 1..];
      SumNatPermutation(s[1..], rest, f);
      assert t == t[..j] + ([t[j]] + t[j + 1..]);
      SumNatConcat(t[..j], [t[j]] + t[j + 1..], f);
      SumNatConcat([t[j]], t[j + 1..], f);
      SumNatConcat(t[..j], t[j + 1..], f);
    }
  }

  /** Summing does not depend on the order of the sequence. */
  lemma {:induction false} SumRealPermutation<T>(s: seq<T>, t: seq<T>, f: T -> real)
    requires multiset(s) == multiset(t)
    ensures SumReal(s, f) == SumReal(t, f)
    decreases |s|
  {
    if s == [] {
      assert t == [];
    } else {
      var j := FindInPermutation(s, t);
      var rest := t[..j] + t[j + 1..];
      SumRealPermutation(s[1..], rest, f);
      assert t == t[..j] + ([t[j]] + t[j + 1..]);
      SumRealConcat(t[..j], [t[j]] + t[j + 1..], f);
      SumRealConcat([t[j]], t[j + 1..], f);
      SumRealConcat(t[..j], t[j + 1..], f);
    }
  }
  // ---------------------------------------------------------------------
  // The dashboards' folds over a list, and what they compute.

  /** Every counter of the record is at least one: a key is present only
      when something was counted under it. */
  predicate Positive<K>(m: map<K, nat>) {
    forall k :: k in m ==> m[k] >= 1
  }

  /** "the key of `x` is `k`", as a predicate to count with. */
  function HasKey<T, K(==)>(key: T -> K, k: K): T -> bool {
    x => key(x) == k
  }

  /** "`k` is among the keys of `x`", as a predicate to count with. */
  function AmongKeys<T, K>(keys: T -> set<K>, k: K): T -> bool {
    x => k in keys(x)
  }

  /** `list.reduce((acc, x) => { acc[key(x)] = (acc[key(x)] || 0) + 1; ... }, acc)`. */
  function BumpEach<T, K(!new)>(acc: map<K, nat>, s: seq<T>, key: T -> K): (r: map<K, nat>)
    decreases |s|
  {
    if s == [] then acc else BumpEach(Bump(acc, key(s[0])), s[1..], key)
  }

  /** `list.forEach(x => keys(x).forEach(k => bump k))`: each element counts
      once under each of its keys. */
  function BumpEachSet<T, K(!new)>(acc: map<K, nat>, s: seq<T>, keys: T -> set<K>): (r: map<K, nat>)
    decreases |s|
  {
    if s == [] then acc else BumpEachSet(BumpAll(acc, keys(s[0])), s[1..], keys)
  }

  /** `list.reduce((sum, x) => sum + f(x), acc)`. */
  function FoldSum<T>(acc: real, s: seq<T>, f: T -> real): real
    decreases |s|
  {
    if s == [] then acc else FoldSum(acc + f(s[0]), s[1..], f)
  }

  /** The left fold adds the sum of `f` to its start value. */
  lemma {:induction false} FoldSumIsSum<T>(acc: real, s: seq<T>, f: T -> real)
    ensures FoldSum(acc, s, f) == acc + SumReal(s, f)
    decreases |s|
  {
    if s != [] {
      FoldSumIsSum(acc + f(s[0]), s[1..], f);
    }
  }

  /** A key's counter grows by the number of elements with that key, and no
      zero counter appears. */
  lemma {:induction false} BumpEachCounts<T, K(!new)>(acc: map<K, nat>, s: seq<T>, key: T -> K)
    ensures forall k :: Get(BumpEach(acc, s, key), k) == Get(acc, k) + CountIf(s, HasKey(key, k))
    ensures Positive(acc) ==> Positive(BumpEach(acc, s, key))
    decreases |s|
  {
    if s != [] {
      BumpEachCounts(Bump(acc, key(s[0])), s[1..], key);
    }
  }

  /** Every element adds exactly one to the sum of the counters. */
  lemma {:induction false} BumpEachTotal<T, K(!new)>(acc: map<K, nat>, s: seq<T>, key: T -> K)
    ensures Total(BumpEach(acc, s, key)) == Total(acc) + |s|
    decreases |s|
  {
    if s != [] {
      TotalBump(acc, key(s[0]));
      BumpEachTotal(Bump(acc, key(s[0])), s[1..], key);
    }
  }

  /** A key's counter grows by the number of elements having it among their
      keys, and no zero counter appears. */
  lemma {:induction false} BumpEachSetCounts<T, K(!new)>(acc: map<K, nat>, s: seq<T>, keys: T -> set<K>)
    ensures forall k :: Get(BumpEachSet(acc, s, keys), k) == Get(acc, k) + CountIf(s, AmongKeys(keys, k))
    ensures Positive(acc) ==> Positive(BumpEachSet(acc, s, keys))
    decreases |s|
  {
    if s != [] {
      BumpEachSetCounts(BumpAll(acc, keys(s[0])), s[1..], keys);
    }
  }

  /** Records without zero counters are equal when all their counters are. */
  lemma PositiveMapsEqual<K>(a: map<K, nat>, b: map<K, nat>)
    requires Positive(a) && Positive(b)
    requires forall k :: Get(a, k) == Get(b, k)
    ensures a == b
  {
    assert forall k :: k in a <==> k in b by {
      forall k
        ensures k in a <==> k in b
      {
        assert Get(a, k) == Get(b, k);
      }
    }
    assert forall k :: k in a ==> a[k] == Get(a, k) == Get(b, k) == b[k];
  }
}

=== FILE: wrappers.dfy ===
/** Optional values and success/failure results, used wherever the services
    return `null` or throw. */
module Wrappers {

  datatype Option<+T> = None | Some(value: T) {

    /** The wrapped value, or `default` when there is none. */
    function GetOr(default: T): T {
      match this
      case Some(v) => v
      case None => default
    }
  }

  datatype Result<+R, +E> = Success(value: R) | Failure(error: E)
}
